=== FILE: README.md ===
# crocodiler in Dafny

A Dafny model of the core of *crocodiler*, a Telegram bot for the word-guessing
game "Crocodile". In a chat, one player (the host) draws a secret word from a
word pack and explains it. The other players send guesses until one of them
matches the word. The model covers:

- **the session engine** of both revisions.
  - `Game` covers `internal/croc/game.go`: one session per chat, active while
    it holds a word, with an optional dictionary definition.
  - `LegacyGame` covers the root `game.go`: the same rules without
    definitions. The `LegacyGame.*Refine*` lemmas relate every operation the
    two revisions share: once definitions are forgotten and packs are reduced
    to their word lists, `Play`, `SetWordPack`, `Stop`, `CheckGuess`,
    `NextWord`, `SkipWord` and `GetWord` leave the same sessions behind and
    succeed or fail alike. They differ in what they report: the current
    `Play` says whether the word has a definition, where the old one returns
    the word, and the current revision also returns definitions.
- **the guess matcher** (`Guess`). It applies a byte-length bound to the raw
  guess, trims a fixed cut set of punctuation, and compares case-insensitively.
- **the word catalog** of both revisions.
  - `Words` holds the line filter of `loadWordPack`.
  - `Registry` is the `WordDB` tables, generic in what a pack is.
  - `Catalog` and `LegacyCatalog` put packs into the registry.
- **`truncateDefinition`** (`Truncate`): a definition is shortened for display
  at a line break, full stop or space, and gets an ellipsis.
- **the language-model chat history** `aiChat` (`AiChat`). It keeps a system
  prompt, and once the history exceeds its limit it drops the oldest
  question/answer pairs.
- **the offline dictionary builder** of `internal/helper/dict.go`.
  - `Glossary` collects a word's senses and renders them.
  - `DictBuilder` indexes records under several shared keys, looks words up
    through a chain of fallbacks, and fills a pack's bucket.

Shared pieces:

- `Text` holds Go's `strings.TrimSpace`, `strings.Trim`, `strings.ToLower`
  and UTF-8 byte length, over `seq<char>`.
- `Wrappers` holds `Option`, `Result` and `Outcome`.

Randomness is a parameter. `rand.Intn(len(words))` becomes an arbitrary
`roll: nat` taken modulo the length. `Words.PickWordCovers` shows every word
can be drawn.

Stores are parameters too:

- The chat preferences become a `ChatConfig` argument.
- The runtime dictionary becomes a function argument.
- The word files and the dictionary file become their lines, already read.

## Model

| member | source | states |
|---|---|---|
| Text.LowerChar | internal/croc/game.go:45 | the result is never a capital of the folded ranges (A–Z, Latin-1, basic Cyrillic); a character changes exactly when it is such a capital; its UTF-8 width is kept |
| Text.Lower | internal/croc/game.go:45 | `strings.ToLower` keeps the length and folds every character on its own |
| Text.Utf8LenLower | internal/croc/game.go:40-45 | lower-casing keeps the byte length, so the bound and the folding do not interfere |
| Text.LowerIdempotent | internal/croc/game.go:45 | lower-casing twice equals lower-casing once |
| Text.Utf8LenBounds | internal/croc/game.go:40 | the byte length `len` used by the guess bound lies between the code-point count and four times it, and equals the count for ASCII text |
| Text.Utf8Len | internal/croc/game.go:40 | `len` of a string is at least its code-point count and at most four times it |
| Text.Utf8LenAppend | internal/croc/game.go:40 | byte length adds up over concatenation |
| Text.TrimFuncShape | internal/croc/game.go:44 | the trimmed string is an infix; everything before and after it is in the cut set; it cannot be trimmed further |
| Text.TrimFunc | internal/croc/game.go:44 | `strings.Trim` never lengthens its input and leaves nothing trimmable at either end; `Text.TrimFuncShape` and `Text.TrimFuncPadded` pin it down completely |
| Text.TrimFuncPadded | internal/croc/game.go:44 | conversely, trimming undoes exactly a padding of cut-set characters around an untrimmable string |
| Words.TrimSpaceIdempotent | internal/croc/word_db.go:57 | `strings.TrimSpace` applied twice equals once |
| Text.TrimSpace | internal/croc/word_db.go:57 | `strings.TrimSpace` never lengthens its input and leaves no white space at either end |
| Words.IsWordIffTrimmed | internal/croc/word_db.go:57-58 | a usable word is exactly a non-empty string that `TrimSpace` leaves unchanged |
| Words.PackWords | internal/croc/word_db.go:55-61 | the filter never yields more words than lines |
| Words.PackWordsAreWords | internal/croc/word_db.go:57-60 | every kept entry is non-empty with no white space at either end |
| Words.PackWordsMembers | internal/croc/word_db.go:57-60 | a word is kept exactly when it is non-empty and some line trims to it |
| Words.PackWordsAppend | internal/croc/word_db.go:56-61 | the filter works line by line: filtering a concatenation concatenates the results |
| Words.PackWordsOfWords | internal/croc/word_db.go:56-61 | a list of usable words passes unchanged |
| Words.PackWordsIdempotent | internal/croc/word_db.go:56-61 | filtering twice equals filtering once |
| Words.PickWord | internal/croc/word_db.go:19-22 | the drawn word is an element of the pack and is a usable word |
| Words.PickWordCovers | internal/croc/word_db.go:19-22 | every index of the pack can be drawn |
| Registry.GetWordPackIDs | internal/croc/word_db.go:96-103 | a missing language fails with its "does not exist" error |
| Registry.GetLanguageName | internal/croc/word_db.go:105-112 | a missing language fails with its "does not exist" error |
| Registry.GetWordPackName | internal/croc/word_db.go:114-125 | a missing language or pack fails with the pack's "does not exist" error |
| Registry.GetWordPack | internal/croc/word_db.go:127-134 | a missing language (nil inner map) or pack fails with the pack's error |
| Registry.GetLanguageIDs | internal/croc/word_db.go:92-94 | in a valid registry the listed languages are exactly the ones that have a pack table |
| Registry.AddLanguage | internal/croc/word_db.go:142-148 | the new language is appended to the list, answers with its name and has an empty pack list |
| Registry.AddPack | internal/croc/word_db.go:150-152 | the language list is unchanged, the pack is appended to its language's list, and the pack and its name are found under it |
| Registry.Register | internal/croc/word_db.go:142-152 | after a load the language is listed and the pack and its name are found; `Registry.RegisterLanguage`, `Registry.RegisterPack` and the frame lemmas state the rest |
| Registry.GettersAgree | internal/croc/word_db.go:92-134 | in a valid registry the getters find a language exactly when `GetLanguageIDs` lists it, and a pack and its name exactly when its language's list holds it |
| Registry.EmptyValid | internal/croc/word_db.go:82-90 | `NewWordDB` is a valid registry |
| Registry.AddLanguageValid | internal/croc/word_db.go:142-148 | registering an unknown language keeps every table in step |
| Registry.AddPackValid | internal/croc/word_db.go:150-152 | storing a pack under a known language keeps every table in step |
| Registry.RegisterValid | internal/croc/word_db.go:142-152 | the whole registration keeps the registry valid |
| Registry.RegisterLanguage | internal/croc/word_db.go:142-148 | the language list grows only for a new language, and the language name is taken only from its first pack |
| Registry.RegisterPack | internal/croc/word_db.go:151 | the pack ID is appended to its language's list in load order |
| Registry.RegisterFindable | internal/croc/word_db.go:150-152 | afterwards the pack and its name are found under their IDs |
| Registry.AddLanguageFrame | internal/croc/word_db.go:142-148 | adding an unknown language leaves every pack lookup and pack-name lookup with the answer it had |
| Registry.AddPackFrame | internal/croc/word_db.go:150-152 | storing one pack changes no other pack or pack name |
| Registry.RegisterFramePacks | internal/croc/word_db.go:142-152 | a registration leaves every other pack and pack name as it was |
| Registry.RegisterFrameLanguages | internal/croc/word_db.go:142-152 | a registration leaves every other language's pack list and name as they were |
| Catalog.GetWordPackOk | internal/croc/word_db.go:127-134 | every pack handed out is usable and carries the language and pack ID it was asked for |
| Catalog.GetWord | internal/croc/word_db.go:19-22 | some word of the pack, never blank |
| Catalog.LoadPack | internal/croc/word_db.go:36-72 | fails exactly when no line survives the filter; otherwise the pack holds the filtered words with its IDs and part |
| Catalog.LoadWordPack | internal/croc/word_db.go:136-155 | fails exactly when the filter leaves nothing, and a failure changes nothing; a success makes the pack findable; the catalog stays well formed |
| Catalog.RegisterKeepsCatalog | internal/croc/word_db.go:142-152 | registering a usable pack under its own IDs keeps every stored pack usable and under its own IDs |
| Catalog.LoadWordPackEffect | internal/croc/word_db.go:142-152 | a successful load lists and names the language only for its first pack, and appends the pack to its language's list with its name |
| Catalog.LoadOnePack | internal/croc/word_db_test.go:26-75 | loading one two-word pack into an empty catalog gives exactly that language and pack, with their names |
| Catalog.LoadOnePackContents | internal/croc/word_db_test.go:77-85 | the same pack comes back with its IDs, part and words, and draws one of its words |
| LegacyCatalog.GetWordPackOk | word_db.go:99-106 | every pack handed out is a non-empty list of words, none blank or padded |
| LegacyCatalog.GetWord | word_db.go:13-16 | some word of the pack, never blank |
| LegacyCatalog.LoadPack | word_db.go:18-44 | fails exactly when no line survives the filter; otherwise it is the filtered words |
| LegacyCatalog.LoadWordPack | word_db.go:108-127 | as in the current revision, over plain word lists |
| LegacyCatalog.RegisterKeepsCatalog | word_db.go:114-124 | registering a usable pack keeps every stored pack usable |
| LegacyCatalog.LoadWordPackEffect | word_db.go:114-124 | the language is listed and named only by its first pack, and the pack is appended with its name |
| Guess.Matches | internal/croc/game.go:31-50 | a guess wins exactly when the player is not the host, a round is running, the raw guess has at most twice the word's bytes, and the trimmed, lower-cased guess equals the lower-cased word |
| Guess.Normalize | internal/croc/game.go:44-45 | the normalized guess is no longer than the guess and has no cut-set character at either end |
| Guess.NormalizeIdempotent | internal/croc/game.go:44-45 | normalizing a normalized guess changes nothing |
| Guess.MatchesShape | internal/croc/game.go:31-50 | a match implies: not the host, a round is running, the raw guess has at most twice the word's bytes, and the guess is the word up to case between two runs of cut-set characters |
| Guess.NormalizedShape | internal/croc/game.go:44-45 | a guess that trims and lower-cases to the word is the word up to case, padded with cut-set characters |
| Guess.MatchesPadded | internal/croc/game.go:31-50 | conversely, a non-host who sends the word in any case, wrapped in cut-set characters and within the byte bound, matches |
| Guess.HostNeverMatches | internal/croc/game.go:32-34 | the host never matches, whatever the text |
| Guess.MatchesBoundBeforeTrim | internal/croc/game.go:40-44 | the bound applies to the raw text: "...ab" is rejected for "ab" although it trims to it, while ".AB." is accepted |
| Guess.MatchesCyrillicCase | internal/croc/game.go:45 | case is ignored beyond ASCII: the guess "ёж" matches the word "Ёж" |
| Game.ClampExpiry | internal/croc/game.go:60-63 | the idle time is at least one hour and at least the configured value, and is one of the two |
| Game.ClampExpiryIdempotent | internal/croc/game.go:60-63 | clamping a clamped value changes nothing |
| Game.SetWord | internal/croc/game.go:73-80 | the new word comes from the session's pack; the definition is the dictionary's answer for the pack's language, part and the new word; pack and host are kept |
| Game.Play | internal/croc/game.go:82-103 | fails with no change when no pack is chosen or the pack is unknown; otherwise only the chat's session changes, to an active one hosted by the caller with the chosen pack and a word drawn from it, whose definition is the dictionary's answer for that word; the result says whether that answer is non-empty |
| Game.SetWordPack | internal/croc/game.go:105-129 | without a session: ("", false) and no change; it fails with no change exactly when a non-host tries during a round or the pack is unknown; otherwise the pack is replaced and the host is kept; between rounds word and definition stay, during a round a word is re-drawn from the new pack and its definition is the dictionary's answer for it |
| Game.Stop | internal/croc/game.go:131-146 | true exactly when there is no running round or the caller is its host; only a host's stop changes anything, and it ends the round keeping host and pack |
| Game.CheckGuess | internal/croc/game.go:148-163 | succeeds exactly when the session exists and the guess matches; then it returns word and definition and ends the round keeping host and pack; otherwise nothing changes |
| Game.NextWord | internal/croc/game.go:165-179 | succeeds exactly on an existing session without a round; the caller becomes host of a word from the same pack, whose definition is the dictionary's answer for it |
| Game.SkipWord | internal/croc/game.go:181-198 | succeeds exactly for the host of a running round; a fresh word from the same pack, with the dictionary's answer for it as definition, same host |
| Game.GetWordOf | internal/croc/game.go:200-215 | the word is returned exactly to the host of a running round |
| Game.GetDefinition | internal/croc/game.go:217-236 | the definition is returned exactly to the host of a running round that has one |
| Game.GetActiveGames | internal/croc/game.go:238-249 | the result lists exactly the chats with a running round, each once |
| Game.StopTwice | internal/croc/game.go:131-146 | a host's second stop succeeds and changes nothing |
| Game.PlayTakesOverRunningRound | internal/croc/game.go:82-103 | `Play` does not check for a running round: any caller takes over as host |
| Game.WinnerCanHostNext | internal/croc/game.go:148-179 | after a correct guess the old host is kept, and the winner can claim the next word from the same pack |
| Game.PaddedWordMatches | internal/croc/game.go:31-50 | an ASCII word wrapped in ", " and "!" is accepted from a non-host |
| Game.AppleMangoRound | internal/croc/game.go:82-198 | with a pack {"apple", "mango"}, host 1 plays and skips, and player 2 wins with the current word wrapped in punctuation, ending the round |
| LegacyGame.SetWord | game.go:24-26 | the new word comes from the session's pack; pack and host are kept |
| LegacyGame.Play | game.go:62-83 | as in the current revision, returning the drawn word |
| LegacyGame.SetWordPack | game.go:85-109 | as in the current revision, returning only the word |
| LegacyGame.Stop | game.go:111-126 | as in the current revision |
| LegacyGame.CheckGuess | game.go:128-142 | a match returns the word and ends the round keeping host and pack; otherwise nothing changes |
| LegacyGame.NextWord | game.go:144-158 | as in the current revision, without a definition |
| LegacyGame.SkipWord | game.go:160-177 | as in the current revision, without a definition |
| LegacyGame.GetWordOf | game.go:179-194 | the word is returned exactly to the host of a running round |
| LegacyGame.StopTwice | game.go:111-126 | a host's second stop succeeds and changes nothing |
| LegacyGame.EraseOk | game.go:10-14 | forgetting definitions maps well-formed current sessions to well-formed old ones |
| LegacyGame.StopAndGuessRefine | game.go:111-142 | `Stop` and `CheckGuess` of both revisions agree once definitions are forgotten |
| LegacyGame.NextAndSkipRefine | game.go:144-177 | `NextWord` and `SkipWord` of both revisions agree once definitions are forgotten |
| LegacyGame.GetWordRefines | game.go:179-194 | `GetWord` of both revisions agree |
| LegacyGame.EraseCatalog | word_db.go:99-106 | the current catalog seen as an old one: the same language and pack tables, each pack reduced to its words |
| LegacyGame.EraseCatalogGet | word_db.go:99-106 | a pack is found in the erased catalog exactly when it is found in the current one, as its word list, and a miss gives the same error |
| LegacyGame.EraseCatalogOk | word_db.go:108-127 | a well-formed current catalog erases to a well-formed old one |
| LegacyGame.PlayRefine | game.go:62-83 | `Play` of both revisions leave the same sessions and succeed or fail with the same error; the old one returns the word the current one drew |
| LegacyGame.SetWordPackRefine | game.go:85-109 | `SetWordPack` of both revisions leave the same sessions, succeed or fail with the same error, and report the same word |
| Truncate.Truncate | internal/croc/bot.go:558-589 | the result has at most `maxLen` code points; it is the text exactly when the text fits; otherwise it is a prefix of the text followed by "…" |
| Truncate.TruncateCutsAt | internal/croc/bot.go:568-588 | the cut falls at the last line break in the window's second half, else the last full stop there, else the last space anywhere in the window, else after `maxLen - 1` code points |
| Truncate.TruncateIdempotent | internal/croc/bot.go:558-589 | truncating twice equals truncating once |
| Truncate.TruncateTable | internal/croc/bot_test.go:11-17 | the short table cases: "short text" at 10, "" at 10, "a" at 1 are unchanged |
| Truncate.TruncateTableLong | internal/croc/bot_test.go:12-15 | the four long table cases give "long text…", "this is a very long…", "this is a very…" and "this_is_a_very_long…" |
| Truncate.CutAtFullStop | internal/croc/bot.go:569-582 | with no line break in the window, the last full stop in its second half is the cut |
| Truncate.CutAtFinalSpace | internal/croc/bot.go:569-582 | with neither line break nor full stop in the window, a final space is the cut |
| Truncate.CutHard | internal/croc/bot.go:584-588 | with no separator in the window, `maxLen - 1` code points are kept |
| AiChat.NewChat | internal/croc/ai.go:19-28 | the chat holds only the system prompt and has the given limit |
| AiChat.RemoveCount | internal/croc/ai.go:41-44 | one trim drops an even number of at least two messages, between a quarter of the limit and one more |
| AiChat.AddMessage | internal/croc/ai.go:30-47 | the new message is last and the first message stays first; above a limit of four an overflowing history loses exactly `RemoveCount` of its oldest messages after the prompt; the rest is a suffix of the old history plus the new message |
| AiChat.AddKeepsPrompt | internal/croc/ai.go:40-46 | adding a message, trimmed or not, keeps the system prompt in first place |
| AiChat.AddUserMessage | internal/croc/ai.go:49-51 | the last message is the user's text; a chat with its prompt keeps it |
| AiChat.AddBotMessage | internal/croc/ai.go:53-55 | the last message is the bot's text; a chat with its prompt keeps it |
| AiChat.Clear | internal/croc/ai.go:57-59 | only the prompt remains |
| AiChat.AddKeepsBound | internal/croc/ai.go:40-46 | with a limit above four, a history within the limit stays within it |
| AiChat.SmallLimitNeverTrims | internal/croc/ai.go:40 | with a limit of four or less nothing is ever dropped |
| AiChat.AddKeepsAlternation | internal/croc/ai.go:40-46 | dropping an even count keeps user and bot messages alternating after the prompt |
| AiChat.AddMessageScenario | internal/croc/ai_test.go:53-75 | `TestAddMessage`: the first two messages land at positions 1 and 2 with their roles and texts, and after five more the history is within the limit of five |
| Glossary.AddSenses | internal/helper/dict.go:78-95 | the redirect is kept; existing senses stay as a prefix; at most one sense is added per record sense; a glossary with no blank and no immediately repeated sense keeps that shape |
| Glossary.LastSense | internal/helper/dict.go:69-76 | the last sense is one of the senses, and in a well-formed glossary it is empty exactly when there are none |
| Glossary.AddSensesKeeps | internal/helper/dict.go:79-93 | every non-blank candidate (raw gloss, else gloss) ends up among the senses |
| Glossary.AddSensesOnly | internal/helper/dict.go:79-93 | nothing but the old senses and the candidates gets in |
| Glossary.AddSensesAppend | internal/helper/dict.go:163-166 | merging a second record of a key equals adding both records' senses in one go |
| Glossary.NewGlossary | internal/helper/dict.go:63-67 | the glossary is well formed, has no redirect, and its senses are exactly the non-blank candidates |
| Glossary.RepeatCollapses | internal/helper/dict.go:87-93 | a sense repeated right after itself is recorded once and a sense without text is skipped |
| Glossary.RepeatApartKept | internal/helper/dict.go:91-93 | a sense repeated one apart is recorded twice |
| Glossary.DecimalRoundTrip | internal/helper/dict.go:104 | the `%d` rendering reads back as its number |
| Glossary.GetDefinition | internal/helper/dict.go:97-108 | its loop builds the independent rendering: one sense verbatim, else numbered "i) sense\n" lines, "" for none; for two or more it starts with "1) " and the first sense |
| Glossary.TwoSensesNumbered | internal/helper/dict.go:102-105 | two senses render as "1) x\n2) y\n" |
| DictBuilder.NewKeys | internal/helper/dict.go:152-177 | a fresh record is filed under its key and the key's "low/" twin, plus "any-pos/" and its twin when parts are kept |
| DictBuilder.Accepts | internal/helper/dict.go:144-150 | a record is kept exactly when it has no language code or the updater's own, and it either names no word or has at least one sense |
| DictBuilder.PrimaryKey | internal/helper/dict.go:152-161 | the key of a word ends with the word, and with parts of speech on it is the part of speech, a slash, then the word; a redirect's key is "redirect/" and then the title |
| DictBuilder.Ingest | internal/helper/dict.go:144-178 | skipped records change nothing; only the glossary under an accepted record's known key can change; the dictionary stays well formed |
| DictBuilder.IngestFresh | internal/helper/dict.go:169-178 | a record with a new key is counted and every one of its keys leads to its glossary; every other key is unchanged |
| DictBuilder.IngestMerge | internal/helper/dict.go:163-167 | a record with a known key merges its senses, and every key sharing that glossary sees the merge |
| DictBuilder.BuildDefs | internal/helper/dict.go:131-189 | it fails with the empty-dictionary error exactly when no record is accepted; otherwise the dictionary is well formed and holds at least one word |
| DictBuilder.IngestAll | internal/helper/dict.go:135-179 | the loop over the records keeps the dictionary well formed and never lowers the word count |
| DictBuilder.IngestAllCounted | internal/helper/dict.go:169-178 | the word count equals the number of stored glossaries, and is positive once any record was accepted |
| DictBuilder.NewLangUpdaterAsWritten | internal/helper/dict.go:135-197 | as written, it succeeds only when the last line decodes |
| DictBuilder.NewLangUpdater | internal/helper/dict.go:135-189 | undecodable lines are skipped; a success is well formed and non-empty |
| DictBuilder.ParseFailureIgnored | internal/helper/dict.go:138-142 | an undecodable line anywhere changes nothing |
| DictBuilder.AsWrittenDiffers | internal/helper/dict.go:138-197 | as-written and corrected differ exactly when the dictionary is non-empty and its last line does not decode |
| DictBuilder.StaleParseErrorDropsLanguage | internal/helper/dict.go:43-47 | one noun then a broken line: the corrected builder succeeds, the as-written one returns the stale error and the language is dropped |
| DictBuilder.FindDefinition | internal/helper/dict.go:275-313 | a failure is always the word's not-found error |
| DictBuilder.FindDefinitionOrder | internal/helper/dict.go:275-313 | the fallbacks in order: the key, its "low/" twin, a redirect record followed to its target, then (with a part of speech) "any-pos/" and its twin; none found is the error |
| DictBuilder.RedirectGoesNowhere | internal/helper/dict.go:292-299 | no glossary has a redirect target, so a found redirect record sends the lookup to "" or to the bare "pos/" prefix |
| DictBuilder.FindAfterIngest | internal/helper/dict.go:169-177 | a word ingested into an empty dictionary is found by any spelling that lower-cases the same, and by each of its own keys |
| DictBuilder.CountFound | internal/helper/dict.go:250-267 | the number of entries the lookup resolves never exceeds the number of words |
| DictBuilder.CountFoundExtremes | internal/helper/dict.go:250-267 | that number is the whole list exactly when every word resolves, and zero exactly when none does |
| DictBuilder.Lookup | internal/helper/dict.go:253 | the lookup of the loop answers every word as `findDefinition` does with the pack's part of speech |
| DictBuilder.Collect | internal/helper/dict.go:250-267 | `updated` counts the words the lookup resolves and `notFound` the others; the bucket holds exactly the words the lookup resolves, each with its definition |
| DictBuilder.UpdateWordPack | internal/helper/dict.go:214-267 | fails exactly when the pack filters to nothing; otherwise `updated` counts the pack's words that `findDefinition` resolves, `notFound` the rest, and the bucket holds exactly the pack's words that `findDefinition` resolves, with their definitions |

## Findings

| source | as written | input that shows it | evidently intended | confidence | as-written member | corrected member |
|---|---|---|---|---|---|---|
| internal/helper/dict.go:138,197 | the error of the last `json.Unmarshal` in the loop is returned together with a non-empty dictionary, and `UpdateDictionary` (dict.go:43-47) skips the whole language | a dictionary file whose only good record is a noun and whose last line is not valid JSON | undecodable lines are logged and skipped wherever they are, and the language is updated | medium, not executed | DictBuilder.NewLangUpdaterAsWritten (shown by DictBuilder.StaleParseErrorDropsLanguage, DictBuilder.AsWrittenDiffers) | DictBuilder.NewLangUpdater (DictBuilder.ParseFailureIgnored) |

## Left out

- Text.LowerChar: folds only A–Z, the Latin-1 capitals (without U+00D7) and the basic Cyrillic block U+0400–U+042F. Go's `unicode.ToLower` folds every cased script, for example 'Ā' to 'ā' and 'Σ' to 'σ'.
- Text.Lower: built on `Text.LowerChar`, so it folds the same ranges only.
- Guess.Matches: `strings.ToLower` is modelled for ASCII, Latin-1 and the basic Cyrillic block (U+0400–U+042F) only. Capitals of other scripts are left unchanged, and Go would fold them. Special cases such as Turkish dotted I are not modelled.
- DictBuilder.FindDefinition: the "low/" twin keys use the same partial case folding as `Guess.Matches`.
- DictBuilder.Ingest: the "low/" twin keys use the same partial case folding.
- Truncate.Truncate: requires `maxLen >= 1` for a text longer than `maxLen`. There `runes[:maxLen-1]` panics in Go (bot.go:584-585). The only caller passes 200 (bot.go:594).
- Game.SetWord: the dictionary is called as `FindDefinition(langID, part, word)`, following the call at internal/croc/game.go:75. The runtime `Dict.FindDefinition(lang, query, re)` at internal/croc/dict.go:45 has a different signature, so its lookup is not part of this model. A failed lookup is the empty string.
- Game.Play: returns the updated sessions and `Result<bool, GameError>`, following `Play`'s signature at internal/croc/game.go:82. The caller at internal/croc/bot.go:452 expects three results, and that mismatch is not modelled.
- Game.NextWord: requires the sessions' invariant (`GamesOk`: every stored pack is non-empty), which `Play` establishes. Go would panic in `rand.Intn(0)` otherwise.
- Game.SkipWord: requires `GamesOk`, for the same reason.
- LegacyGame.NextWord: requires `GamesOk`, for the same reason.
- LegacyGame.SkipWord: requires `GamesOk`, for the same reason.
- AiChat.Clear: requires a chat that has its prompt. The Go slice `[:1]` panics on an empty history, and `newAiChat` always adds the prompt.
- DictBuilder.UpdateWordPack: `updated` counts every word `findDefinition` resolves. Go does not count a resolved word whose `bkt.Put` fails (dict.go:260-264), in either counter. The bbolt bucket, its transaction, the store errors and the commit are not modelled; the bucket is a map in the result.
- The session cache: `imcache` with sliding expiry and its locking is a plain map. Sessions never expire, and `NewGame`'s clamped duration (`Game.ClampExpiry`) is computed but not used.
- Text.Utf8Len: strings are sequences of Unicode scalar values, so every string is assumed to be valid UTF-8. Go's `len` counts raw bytes, and `[]rune(text)` and `string(runes)` (bot.go:563, bot.go:588) turn each invalid byte into U+FFFD, one byte in and three bytes out. Such input cannot be expressed here.
- Randomness: `rand.Intn` is the `roll` parameter, so no distribution is claimed.
- Game.GetActiveGames: Go's map iteration order is unspecified. The method returns the active chats in some order, and no particular order is promised.
- I/O: reading the word files, the dictionary file and their scanner errors is out of scope. Lines arrive already read, and a decoded record arrives as `Option<WordDef>`, so JSON decoding itself is not modelled.
- `db.LoadChatConfig` and the chat database: the chat's preferences are the `ChatConfig` parameter.
- The language-model client in `ai.go` (everything past `aiChat`), the bot UI in `bot.go` except `truncateDefinition`, and the configuration loaders are not part of this model.

=== FILE: ai_chat.dfy ===
/** The conversation history kept for the language-model player (`aiChat`):
    a system prompt followed by the exchanged messages, trimmed from the
    oldest end once it outgrows its limit. */
module AiChat {
  import opened Text

  datatype Role = System | Human | AI

  datatype Message = Message(role: Role, text: String)

  datatype Chat = Chat(messages: seq<Message>, maxHst: int)

  /** Every chat starts with its system prompt, which stays first. */
  predicate ChatOk(chat: Chat) {
    |chat.messages| >= 1 && chat.messages[0].role == System
  }

  /** Messages after the prompt alternate, starting with the user's. */
  predicate Alternating(chat: Chat) {
    forall i :: 1 <= i < |chat.messages| ==>
      chat.messages[i].role == (if i % 2 == 1 then Human else AI)
  }

  /** `newAiChat`. */
  function NewChat(prompt: String, maxHistory: int): (r: Chat)
    ensures ChatOk(r) && Alternating(r)
    ensures r.messages == [Message(System, prompt)] && r.maxHst == maxHistory
  {
    Chat([Message(System, prompt)], maxHistory)
  }

  /** How many messages one trim drops: a quarter of the limit, rounded up
      to an even number so that question/answer pairs go together. */
  function RemoveCount(maxHst: int): (r: int)
    requires maxHst > 4
    ensures r >= 2 && r % 2 == 0
    ensures maxHst / 4 <= r <= maxHst / 4 + 1
  {
    var n := maxHst / 4;
    if n % 2 != 0 then n + 1 else n
  }

  /** `addMessage`: append, then, when a limit above four is exceeded, drop
      the oldest messages after the prompt. */
  function AddMessage(chat: Chat, role: Role, text: String): (r: Chat)
    ensures r.maxHst == chat.maxHst
    ensures |r.messages| >= 1 && r.messages[|r.messages| - 1] == Message(role, text)
    ensures |chat.messages| >= 1 ==> r.messages[0] == chat.messages[0]
    ensures var all := chat.messages + [Message(role, text)];
      && |r.messages| == (if chat.maxHst > 4 && |all| > chat.maxHst then |all| - RemoveCount(chat.maxHst) else |all|)
      && r.messages[1..] == all[|all| - (|r.messages| - 1)..]
  {
    var all := chat.messages + [Message(role, text)];
    if chat.maxHst > 4 && |all| > chat.maxHst then
      var rm := RemoveCount(chat.maxHst);
      chat.(messages := all[..1] + all[rm + 1..])
    else
      chat.(messages := all)
  }

  /** `addUserMessage`. */
  function AddUserMessage(chat: Chat, text: String): (r: Chat)
    ensures |r.messages| >= 1 && r.messages[|r.messages| - 1] == Message(Human, text)
    ensures ChatOk(chat) ==> ChatOk(r)
  {
    AddMessage(chat, Human, text)
  }

  /** `addBotMessage`. */
  function AddBotMessage(chat: Chat, text: String): (r: Chat)
    ensures |r.messages| >= 1 && r.messages[|r.messages| - 1] == Message(AI, text)
    ensures ChatOk(chat) ==> ChatOk(r)
  {
    AddMessage(chat, AI, text)
  }

  /** `clear`: back to the prompt alone. */
  function Clear(chat: Chat): (r: Chat)
    requires ChatOk(chat)
    ensures ChatOk(r) && Alternating(r)
    ensures r.messages == [chat.messages[0]] && r.maxHst == chat.maxHst
  {
    chat.(messages := chat.messages[..1])
  }

  /** Adding keeps the prompt in front. */
  lemma AddKeepsPrompt(chat: Chat, role: Role, text: String)
    requires ChatOk(chat)
    ensures ChatOk(AddMessage(chat, role, text))
  {
  }

  /** With a limit above four, a history within the limit stays within it. */
  lemma AddKeepsBound(chat: Chat, role: Role, text: String)
    requires chat.maxHst > 4 && |chat.messages| <= chat.maxHst
    ensures |AddMessage(chat, role, text).messages| <= chat.maxHst
  {
  }

  /** With a limit of four or less the history is never trimmed. */
  lemma SmallLimitNeverTrims(chat: Chat, role: Role, text: String)
    requires chat.maxHst <= 4
    ensures AddMessage(chat, role, text).messages == chat.messages + [Message(role, text)]
  {
  }

  /** Trimming an even number of messages keeps the exchange alternating
      when user and bot take turns. */
  lemma {:induction false} AddKeepsAlternation(chat: Chat, text: String)
    requires ChatOk(chat) && Alternating(chat)
    ensures var role := if |chat.messages| % 2 == 1 then Human else AI;
      Alternating(AddMessage(chat, role, text))
  {
    var role := if |chat.messages| % 2 == 1 then Human else AI;
    var all := chat.messages + [Message(role, text)];
    assert Alternating(Chat(all, chat.maxHst));
    if chat.maxHst > 4 && |all| > chat.maxHst {
      var rm := RemoveCount(chat.maxHst);
      var m := all[..1] + all[rm + 1..];
      forall i | 1 <= i < |m|
        ensures m[i].role == (if i % 2 == 1 then Human else AI)
      {
        assert m[i] == all[i + rm];
        assert (i + rm) % 2 == i % 2;
      }
    }
  }

  /** The history of `TestAddMessage`: a limit of five, a greeting
      and five more alternating messages. */
  lemma AddMessageScenario()
    ensures var c0 := NewChat("Welcome!", 5);
      var c1 := AddUserMessage(c0, "Hello!");
      var c2 := AddBotMessage(c1, "Hi there!");
      && |c1.messages| == 2 && c1.messages[1] == Message(Human, "Hello!")
      && |c2.messages| == 3 && c2.messages[2] == Message(AI, "Hi there!")
      && var c3 := AddUserMessage(c2, "User message");
         var c4 := AddBotMessage(c3, "Bot message");
         var c5 := AddUserMessage(c4, "User message");
         var c6 := AddBotMessage(c5, "Bot message");
         var c7 := AddUserMessage(c6, "User message");
         |c7.messages| <= c7.maxHst && c7.messages[0] == Message(System, "Welcome!")
  {
    var c0 := NewChat("Welcome!", 5);
    var c1 := AddUserMessage(c0, "Hello!");
    var c2 := AddBotMessage(c1, "Hi there!");
    var c3 := AddUserMessage(c2, "User message");
    var c4 := AddBotMessage(c3, "Bot message");
    var c5 := AddUserMessage(c4, "User message");
    var c6 := AddBotMessage(c5, "Bot message");
    var c7 := AddUserMessage(c6, "User message");
    AddKeepsBound(c2, Human, "User message");
    AddKeepsBound(c3, AI, "Bot message");
    AddKeepsBound(c4, Human, "User message");
    AddKeepsBound(c5, AI, "Bot message");
    AddKeepsBound(c6, Human, "User message");
  }
}

=== FILE: catalog.dfy ===
/** The word catalog of the current revision: word packs that know their
    language, pack ID and part of speech, held in the registry. */
module Catalog {
  import opened Wrappers
  import opened Text
  import opened Words
  import opened Registry

  datatype WordPack = WordPack(langID: String, packID: String, part: String, words: seq<String>)

  /** A loaded pack always has at least one word and only non-blank words. */
  predicate PackOk(pack: WordPack) {
    WordsOk(pack.words)
  }

  type WordDB = Registry<WordPack>

  /** Every stored pack sits under its own language and pack ID and holds a
      usable word list. */
  ghost predicate PackStoredOk(db: WordDB, l: String, p: String)
    requires l in db.packs && p in db.packs[l]
  {
    var pack := db.packs[l][p];
    pack.langID == l && pack.packID == p && PackOk(pack)
  }

  ghost predicate CatalogOk(db: WordDB) {
    && Valid(db)
    && forall l, p :: l in db.packs && p in db.packs[l] ==> PackStoredOk(db, l, p)
  }

  lemma EmptyCatalogOk()
    ensures CatalogOk(Empty<WordPack>())
  {
  }

  /** Every pack the catalog hands out is usable and carries the IDs it was
      asked for. */
  lemma GetWordPackOk(db: WordDB, langID: String, packID: String)
    requires CatalogOk(db)
    ensures var r := GetWordPack(db, langID, packID);
      r.Success? ==> PackOk(r.value) && r.value.langID == langID && r.value.packID == packID
  {
    if GetWordPack(db, langID, packID).Success? {
      assert PackStoredOk(db, langID, packID);
    }
  }

  /** `WordPack.GetWord`: some word of the pack, never a blank one. */
  function GetWord(pack: WordPack, roll: nat): (w: String)
    requires PackOk(pack)
    ensures w in pack.words && w != ""
  {
    PickWord(pack.words, roll)
  }

  /** `loadWordPack` once the file has been read into lines: the filtered
      words, or an error when none is left. */
  function LoadPack(langID: String, packID: String, part: String, lines: seq<String>): (r: Result<WordPack, PackError>)
    ensures r.Failure? <==> PackWords(lines) == []
    ensures r.Success? ==> PackOk(r.value) && r.value == WordPack(langID, packID, part, PackWords(lines))
  {
    var words := PackWords(lines);
    PackWordsAreWords(lines);
    if |words| == 0 then Failure(EmptyPack) else Success(WordPack(langID, packID, part, words))
  }

  /** `WordDB.LoadWordPack`: a failed load changes nothing, a successful one
      makes the pack findable under its IDs; the catalog stays well formed. */
  function LoadWordPack(db: WordDB, lines: seq<String>, langID: String, packID: String, part: String,
                        langName: String, packName: String): (r: (WordDB, Outcome<PackError>))
    requires CatalogOk(db)
    ensures CatalogOk(r.0)
    ensures r.1.Fail? <==> PackWords(lines) == []
    ensures r.1.Fail? ==> r.0 == db
    ensures r.1.Pass? ==> GetWordPack(r.0, langID, packID) == Success(WordPack(langID, packID, part, PackWords(lines)))
  {
    match LoadPack(langID, packID, part, lines)
    case Failure(e) => (db, Fail(e))
    case Success(pack) =>
      RegisterKeepsCatalog(db, langID, packID, langName, packName, pack);
      RegisterFindable(db, langID, packID, langName, packName, pack);
      (Register(db, langID, packID, langName, packName, pack), Pass)
  }

  /** Registering a usable pack under its own IDs keeps the catalog well
      formed. */
  lemma RegisterKeepsCatalog(db: WordDB, langID: String, packID: String, langName: String, packName: String, pack: WordPack)
    requires CatalogOk(db) && pack.langID == langID && pack.packID == packID && PackOk(pack)
    ensures CatalogOk(Register(db, langID, packID, langName, packName, pack))
  {
    var r := Register(db, langID, packID, langName, packName, pack);
    RegisterValid(db, langID, packID, langName, packName, pack);
    RegisterFindable(db, langID, packID, langName, packName, pack);
    forall l, p | l in r.packs && p in r.packs[l]
      ensures PackStoredOk(r, l, p)
    {
      if (l, p) != (langID, packID) {
        RegisterFramePacks(db, langID, packID, langName, packName, pack, l, p);
        assert PackStoredOk(db, l, p);
      }
    }
  }

  /** The registry effects of a successful load: the language is listed and
      named only by its first pack, the pack is appended to its language's
      list in load order and recorded with its name. */
  lemma LoadWordPackEffect(db: WordDB, lines: seq<String>, langID: String, packID: String, part: String,
                           langName: String, packName: String)
    requires CatalogOk(db) && PackWords(lines) != []
    ensures var db' := LoadWordPack(db, lines, langID, packID, part, langName, packName).0;
      && GetLanguageIDs(db') == (if langID in db.langIDs then db.langIDs else db.langIDs + [langID])
      && GetLanguageName(db', langID) == Success(if langID in db.langIDs then db.langNames[langID] else langName)
      && GetWordPackIDs(db', langID) == Success((if langID in db.langIDs then db.packIDs[langID] else []) + [packID])
      && GetWordPackName(db', langID, packID) == Success(packName)
  {
    var pack := WordPack(langID, packID, part, PackWords(lines));
    RegisterLanguage(db, langID, packID, langName, packName, pack);
    RegisterPack(db, langID, packID, langName, packName, pack);
  }

  /** The catalog test: one pack of two words loaded into an empty catalog
      makes it the only language and pack, with its names. */
  lemma LoadOnePack()
    ensures var r := LoadWordPack(Empty(), ["word1", "word2"], "en", "pack1", "noun", "en", "pack1");
      && r.1 == Pass
      && GetLanguageIDs(r.0) == ["en"]
      && GetWordPackIDs(r.0, "en") == Success(["pack1"])
      && GetLanguageName(r.0, "en") == Success("en")
      && GetWordPackName(r.0, "en", "pack1") == Success("pack1")
  {
    var lines := ["word1", "word2"];
    EmptyCatalogOk();
    assert 'w' !in Spaces && '1' !in Spaces && '2' !in Spaces;
    PackWordsOfWords(lines);
    LoadWordPackEffect(Empty(), lines, "en", "pack1", "noun", "en", "pack1");
    assert [] + ["pack1"] == ["pack1"];
  }

  /** The same load hands back the pack with its IDs and part, and it yields
      a non-empty word. */
  lemma LoadOnePackContents(roll: nat)
    ensures var r := LoadWordPack(Empty(), ["word1", "word2"], "en", "pack1", "noun", "en", "pack1");
      && GetWordPack(r.0, "en", "pack1").Success?
      && var pack := GetWordPack(r.0, "en", "pack1").value;
         pack.langID == "en" && pack.packID == "pack1" && pack.part == "noun" && pack.words == ["word1", "word2"]
         && GetWord(pack, roll) in ["word1", "word2"]
  {
    var lines := ["word1", "word2"];
    EmptyCatalogOk();
    assert 'w' !in Spaces && '1' !in Spaces && '2' !in Spaces;
    PackWordsOfWords(lines);
  }
}

=== FILE: dict_builder.dfy ===
/** The offline dictionary builder (`langUpdater`): parsed dictionary
    records are indexed under several keys that share one glossary, and
    each word of a pack is looked up through a chain of fallbacks.

    Go keeps `map[string]*glossary`, so merging senses into a glossary is
    seen through every key pointing at it. Here the glossaries live in a
    store and the keys map to store positions, which keeps that sharing. */
module DictBuilder {
  import opened Wrappers
  import opened Text
  import opened Words
  import opened Glossary

  datatype Defs = Defs(store: seq<Glossary>, index: map<String, nat>, wordCount: nat)

  /** The errors of the dictionary builder. `StaleParseError` is the
      decoding error of the last line that `newLangUpdater` hands back. */
  datatype DictError = EmptyDictionary | StaleParseError | NotFound(query: String)

  datatype UpdateError = EmptyWordPack

  /** Every key names a stored glossary, and every glossary is well formed
      and has no redirect target. */
  ghost predicate DefsOk(d: Defs) {
    && (forall k :: k in d.index ==> d.index[k] < |d.store|)
    && (forall i :: 0 <= i < |d.store| ==> GlossaryOk(d.store[i]) && d.store[i].redirect == "")
  }

  function EmptyDefs(): (r: Defs)
    ensures DefsOk(r) && r.wordCount == 0
  {
    Defs([], map[], 0)
  }

  /** The glossary a key leads to. */
  function Get(d: Defs, key: String): Option<Glossary> {
    if key in d.index && d.index[key] < |d.store| then Some(d.store[d.index[key]]) else None
  }

  /** The case-insensitive twin of a key. */
  function LowKey(key: String): String {
    "low/" + Lower(key)
  }

  /** A record is skipped when it belongs to another language, or names a
      word but has no senses. */
  predicate Accepts(wd: WordDef, langID: String): (ok: bool)
    ensures ok <==> (wd.langCode == "" || wd.langCode == langID) && (wd.word == "" || |wd.senses| > 0)
  {
    && !(wd.langCode != "" && wd.langCode != langID)
    && !(|wd.senses| == 0 && wd.word != "")
  }

  /** The key a record is filed under. */
  function PrimaryKey(wd: WordDef, parts: bool): (key: String)
    ensures wd.word != "" ==> |wd.word| <= |key| && key[|key| - |wd.word|..] == wd.word
    ensures wd.word != "" && parts ==> |key| == |wd.pos| + 1 + |wd.word| && key[|wd.pos|] == '/'
    ensures wd.word == "" ==> |key| >= 9 && key[..9] == "redirect/" && key[9..] == wd.title
  {
    if wd.word != "" then (if parts then wd.pos + "/" + wd.word else wd.word)
    else "redirect/" + wd.title
  }

  function AnyPosKey(word: String): String {
    "any-pos/" + word
  }

  /** The keys a fresh record registers, in the order the Go code writes them. */
  function NewKeys(wd: WordDef, parts: bool): (r: seq<String>)
    ensures |r| >= 2 && r[0] == PrimaryKey(wd, parts) && r[1] == LowKey(PrimaryKey(wd, parts))
    ensures wd.word != "" && parts ==> |r| == 4 && r[2] == AnyPosKey(wd.word) && r[3] == LowKey(AnyPosKey(wd.word))
    ensures !(wd.word != "" && parts) ==> |r| == 2
  {
    var key := PrimaryKey(wd, parts);
    if wd.word != "" && parts then [key, LowKey(key), AnyPosKey(wd.word), LowKey(AnyPosKey(wd.word))]
    else [key, LowKey(key)]
  }

  function PointAll(index: map<String, nat>, keys: seq<String>, id: nat): (r: map<String, nat>)
    ensures r.Keys == index.Keys + set k | k in keys
    ensures forall k :: k in keys ==> r[k] == id
    ensures forall k :: k in index && k !in keys ==> r[k] == index[k]
    decreases |keys|
  {
    if keys == [] then index else PointAll(index[keys[0] := id], keys[1..], id)
  }

  /** One accepted record of `newLangUpdater`'s loop: merged into the
      glossary its key already leads to, or stored fresh under all its keys. */
  function Ingest(d: Defs, wd: WordDef, langID: String, parts: bool): (r: Defs)
    requires DefsOk(d)
    ensures DefsOk(r)
    ensures !Accepts(wd, langID) ==> r == d
    ensures |d.store| <= |r.store| && forall i :: 0 <= i < |d.store| && r.store[i] != d.store[i] ==>
      Accepts(wd, langID) && PrimaryKey(wd, parts) in d.index && i == d.index[PrimaryKey(wd, parts)]
  {
    if !Accepts(wd, langID) then d
    else
      var key := PrimaryKey(wd, parts);
      if key in d.index then
        var id := d.index[key];
        d.(store := d.store[id := AddSenses(d.store[id], wd.senses)])
      else
        var id := |d.store|;
        Defs(d.store + [NewGlossary(wd)], PointAll(d.index, NewKeys(wd, parts), id), d.wordCount + 1)
  }

  /** A record whose key is new is stored under each of its keys and
      counted; every other key keeps its glossary. */
  lemma IngestFresh(d: Defs, wd: WordDef, langID: String, parts: bool)
    requires DefsOk(d) && Accepts(wd, langID) && PrimaryKey(wd, parts) !in d.index
    ensures var r := Ingest(d, wd, langID, parts);
      && r.wordCount == d.wordCount + 1
      && (forall k :: k in NewKeys(wd, parts) ==> Get(r, k) == Some(NewGlossary(wd)))
      && (forall k :: k !in NewKeys(wd, parts) ==> Get(r, k) == Get(d, k))
  {
    var r := Ingest(d, wd, langID, parts);
    var g := NewGlossary(wd);
    assert r == Defs(d.store + [g], PointAll(d.index, NewKeys(wd, parts), |d.store|), d.wordCount + 1);
    assert forall i :: 0 <= i < |d.store| ==> r.store[i] == d.store[i];
    assert r.store[|d.store|] == g;
  }

  /** A record whose key is known adds its senses to that glossary, and
      every key sharing it sees the merge. */
  lemma IngestMerge(d: Defs, wd: WordDef, langID: String, parts: bool)
    requires DefsOk(d) && Accepts(wd, langID) && PrimaryKey(wd, parts) in d.index
    ensures var r := Ingest(d, wd, langID, parts);
      var prev := Get(d, PrimaryKey(wd, parts)).value;
      && r.wordCount == d.wordCount && r.index == d.index
      && (forall k :: k in d.index && d.index[k] == d.index[PrimaryKey(wd, parts)] ==>
            Get(r, k) == Some(AddSenses(prev, wd.senses)))
      && (forall k :: k in d.index && d.index[k] != d.index[PrimaryKey(wd, parts)] ==> Get(r, k) == Get(d, k))
  {
  }

  /** `newLangUpdater`'s loop over the parsed records. */
  function IngestAll(d: Defs, wds: seq<WordDef>, langID: String, parts: bool): (r: Defs)
    requires DefsOk(d)
    ensures DefsOk(r) && r.wordCount >= d.wordCount
    decreases |wds|
  {
    if wds == [] then d
    else IngestAll(Ingest(d, wds[0], langID, parts), wds[1..], langID, parts)
  }

  /** A dictionary whose every glossary was counted once. */
  predicate Counted(d: Defs) {
    |d.store| == d.wordCount
  }

  /** Ingesting keeps the count of glossaries, and an accepted record always
      leaves at least one. */
  lemma IngestCounted(d: Defs, wd: WordDef, langID: String, parts: bool)
    requires DefsOk(d) && Counted(d)
    ensures Counted(Ingest(d, wd, langID, parts))
    ensures Accepts(wd, langID) ==> Ingest(d, wd, langID, parts).wordCount >= 1
  {
    var key := PrimaryKey(wd, parts);
    if Accepts(wd, langID) && key in d.index {
      assert d.index[key] < |d.store|;
    }
  }

  lemma {:induction false} IngestAllCounted(d: Defs, wds: seq<WordDef>, langID: String, parts: bool)
    requires DefsOk(d) && Counted(d)
    ensures Counted(IngestAll(d, wds, langID, parts))
    ensures (exists i :: 0 <= i < |wds| && Accepts(wds[i], langID)) ==> IngestAll(d, wds, langID, parts).wordCount >= 1
    decreases |wds|
  {
    if wds != [] {
      var d1 := Ingest(d, wds[0], langID, parts);
      IngestCounted(d, wds[0], langID, parts);
      IngestAllCounted(d1, wds[1..], langID, parts);
      if exists i :: 0 <= i < |wds| && Accepts(wds[i], langID) {
        if !Accepts(wds[0], langID) {
          var i :| 0 <= i < |wds| && Accepts(wds[i], langID);
          assert wds[1..][i - 1] == wds[i];
        }
      }
    }
  }

  /** The dictionary of the records: an error exactly when no record was
      accepted, and otherwise at least one glossary. */
  function BuildDefs(wds: seq<WordDef>, langID: String, parts: bool): (r: Result<Defs, DictError>)
    ensures r.Success? ==> DefsOk(r.value) && r.value.wordCount >= 1
    ensures r.Failure? <==> forall i :: 0 <= i < |wds| ==> !Accepts(wds[i], langID)
    ensures r.Failure? ==> r.error == EmptyDictionary
  {
    var d := IngestAll(EmptyDefs(), wds, langID, parts);
    SkippedAll(EmptyDefs(), wds, langID, parts);
    IngestAllCounted(EmptyDefs(), wds, langID, parts);
    if d.wordCount == 0 then Failure(EmptyDictionary) else Success(d)
  }

  lemma {:induction false} SkippedAll(d: Defs, wds: seq<WordDef>, langID: String, parts: bool)
    requires DefsOk(d)
    ensures (forall i :: 0 <= i < |wds| ==> !Accepts(wds[i], langID)) ==> IngestAll(d, wds, langID, parts) == d
    decreases |wds|
  {
    if wds != [] && forall i :: 0 <= i < |wds| ==> !Accepts(wds[i], langID) {
      assert !Accepts(wds[0], langID);
      assert forall i :: 0 <= i < |wds[1..]| ==> wds[1..][i] == wds[i + 1];
      SkippedAll(d, wds[1..], langID, parts);
    }
  }

  /** The records of the lines that decode; `None` is a line that does not. */
  function Parsed(lines: seq<Option<WordDef>>): seq<WordDef>
    decreases |lines|
  {
    if lines == [] then []
    else (if lines[0].Some? then [lines[0].value] else []) + Parsed(lines[1..])
  }

  /** Decoding is line by line: exactly the decodable lines, in order. */
  lemma {:induction false} ParsedAppend(a: seq<Option<WordDef>>, b: seq<Option<WordDef>>)
    ensures Parsed(a + b) == Parsed(a) + Parsed(b)
    decreases |a|
  {
    if a == [] {
      assert a + b == b;
    } else {
      assert (a + b)[0] == a[0] && (a + b)[1..] == a[1..] + b;
      ParsedAppend(a[1..], b);
    }
  }

  /** The loop leaves `err` holding the decoding result of the last line. */
  predicate LastParseFailed(lines: seq<Option<WordDef>>) {
    |lines| > 0 && lines[|lines| - 1].None?
  }

  /** `newLangUpdater` as written: an undecodable last line makes it return
      that line's error next to a non-empty dictionary, and the caller then
      skips the language. */
  function NewLangUpdaterAsWritten(lines: seq<Option<WordDef>>, langID: String, parts: bool): (r: Result<Defs, DictError>)
    ensures r.Success? ==> !LastParseFailed(lines)
  {
    match BuildDefs(Parsed(lines), langID, parts)
    case Failure(e) => Failure(e)
    case Success(d) => if LastParseFailed(lines) then Failure(StaleParseError) else Success(d)
  }

  /** `newLangUpdater` as evidently intended: undecodable lines are logged
      and skipped, wherever they are. */
  function NewLangUpdater(lines: seq<Option<WordDef>>, langID: String, parts: bool): (r: Result<Defs, DictError>)
    ensures r.Success? ==> DefsOk(r.value) && r.value.wordCount >= 1
  {
    BuildDefs(Parsed(lines), langID, parts)
  }

  /** An undecodable line changes nothing, wherever it sits. */
  lemma ParseFailureIgnored(a: seq<Option<WordDef>>, b: seq<Option<WordDef>>, langID: String, parts: bool)
    ensures NewLangUpdater(a + [None] + b, langID, parts) == NewLangUpdater(a + b, langID, parts)
  {
    ParsedAppend(a + [None], b);
    ParsedAppend(a, [None]);
    ParsedAppend(a, b);
    assert Parsed([None]) == [];
    assert Parsed(a) + [] == Parsed(a);
  }

  /** The two disagree exactly when the dictionary is not empty and its last
      line does not decode. */
  lemma AsWrittenDiffers(lines: seq<Option<WordDef>>, langID: String, parts: bool)
    ensures NewLangUpdaterAsWritten(lines, langID, parts) != NewLangUpdater(lines, langID, parts)
      <==> NewLangUpdater(lines, langID, parts).Success? && LastParseFailed(lines)
  {
  }

  /** A dictionary of one noun followed by one broken line: the language
      is dropped as written although it holds a word. */
  lemma StaleParseErrorDropsLanguage()
    ensures var lines := [Some(WordDef("cat", "noun", "", "", "", [Sense(["a cat"], [])])), None];
      && NewLangUpdater(lines, "en", false).Success?
      && NewLangUpdaterAsWritten(lines, "en", false) == Failure(StaleParseError)
  {
    var wd := WordDef("cat", "noun", "", "", "", [Sense(["a cat"], [])]);
    var lines := [Some(wd), None];
    assert Parsed(lines) == [wd] by {
      ParsedAppend([Some(wd)], [None]);
      assert [Some(wd)] + [None] == lines;
      assert Parsed([None]) == [] && Parsed([Some(wd)]) == [wd];
    }
    assert Accepts(wd, "en");
  }

  /** A key, else its case-insensitive twin. */
  function GetEither(d: Defs, key: String): Option<Glossary> {
    if Get(d, key).Some? then Get(d, key) else Get(d, LowKey(key))
  }

  /** Where the redirect step looks once a redirect record was found. */
  function RedirectKey(g: Glossary, pos: String): String {
    if pos == "" then g.redirect else pos + "/" + g.redirect
  }

  function QueryKey(query: String, pos: String): String {
    if pos == "" then query else pos + "/" + query
  }

  /** `findDefinition`: the key, its twin, a redirect record followed to
      its target, and, for a part of speech, the any-part key and its twin. */
  function FindDefinition(d: Defs, query: String, pos: String): (r: Result<String, DictError>)
    ensures r.Failure? ==> r.error == NotFound(query)
  {
    var first := GetEither(d, QueryKey(query, pos));
    var second :=
      if first.Some? then first
      else match GetEither(d, "redirect/" + query)
        case None => None
        case Some(g) => Get(d, RedirectKey(g, pos));
    var third :=
      if second.None? && pos != "" then GetEither(d, AnyPosKey(query)) else second;
    match third
    case None => Failure(NotFound(query))
    case Some(g) => Success(Definition(g))
  }

  /** The lookup in order of precedence: the first candidate that leads to
      a glossary decides, and no candidate leading anywhere is the error. */
  lemma FindDefinitionOrder(d: Defs, query: String, pos: String)
    ensures var key := QueryKey(query, pos);
      var red := "redirect/" + query;
      && (Get(d, key).Some? ==> FindDefinition(d, query, pos) == Success(Definition(Get(d, key).value)))
      && (Get(d, key).None? && Get(d, LowKey(key)).Some? ==>
            FindDefinition(d, query, pos) == Success(Definition(Get(d, LowKey(key)).value)))
      && (GetEither(d, key).None? && GetEither(d, red).Some? && Get(d, RedirectKey(GetEither(d, red).value, pos)).Some? ==>
            FindDefinition(d, query, pos) == Success(Definition(Get(d, RedirectKey(GetEither(d, red).value, pos)).value)))
      && (pos == "" && GetEither(d, key).None? && (GetEither(d, red).None? || Get(d, RedirectKey(GetEither(d, red).value, pos)).None?) ==>
            FindDefinition(d, query, pos) == Failure(NotFound(query)))
      && (pos != "" && GetEither(d, key).None? && (GetEither(d, red).None? || Get(d, RedirectKey(GetEither(d, red).value, pos)).None?) ==>
            FindDefinition(d, query, pos) ==
              (if GetEither(d, AnyPosKey(query)).Some? then Success(Definition(GetEither(d, AnyPosKey(query)).value))
               else Failure(NotFound(query))))
  {
  }

  /** No glossary carries a redirect target, so a redirect record sends
      the lookup to the empty key, or to the bare part-of-speech prefix. */
  lemma RedirectGoesNowhere(d: Defs, query: String, pos: String)
    requires DefsOk(d) && GetEither(d, "redirect/" + query).Some?
    ensures RedirectKey(GetEither(d, "redirect/" + query).value, pos) == (if pos == "" then "" else pos + "/")
  {
  }

  /** A word ingested into an empty dictionary is found by any spelling
      that lower-cases the same, and by each of its own keys. */
  lemma FindAfterIngest(wd: WordDef, langID: String, query: String)
    requires Accepts(wd, langID) && wd.word != ""
    requires Lower(query) == Lower(wd.word) || query in NewKeys(wd, false)
    ensures FindDefinition(Ingest(EmptyDefs(), wd, langID, false), query, "") == Success(Definition(NewGlossary(wd)))
  {
    IngestFresh(EmptyDefs(), wd, langID, false);
    if query !in NewKeys(wd, false) {
      assert LowKey(query) in NewKeys(wd, false);
    }
  }

  /** What the lookup loop of `updateWordPack` keeps: the bucket holds
      exactly the words seen so far that `find` resolves, each with its
      definition. */
  ghost predicate BucketOk(bucket: map<String, String>, words: seq<String>, find: String -> Result<String, DictError>) {
    && (forall w :: w in bucket <==> w in words && find(w).Success?)
    && (forall w :: w in bucket ==> bucket[w] == find(w).value)
  }

  /** How many entries of `words` the lookup resolves, repeats counted. */
  function CountFound(words: seq<String>, find: String -> Result<String, DictError>): (n: nat)
    ensures n <= |words|
  {
    if |words| == 0 then 0
    else CountFound(words[..|words| - 1], find) + (if find(words[|words| - 1]).Success? then 1 else 0)
  }

  /** The count is the whole list exactly when every word resolves, and
      zero exactly when none does. */
  lemma {:induction false} CountFoundExtremes(words: seq<String>, find: String -> Result<String, DictError>)
    ensures CountFound(words, find) == |words| <==> forall i :: 0 <= i < |words| ==> find(words[i]).Success?
    ensures CountFound(words, find) == 0 <==> forall i :: 0 <= i < |words| ==> find(words[i]).Failure?
  {
    if |words| > 0 {
      var init := words[..|words| - 1];
      CountFoundExtremes(init, find);
      assert forall i :: 0 <= i < |init| ==> init[i] == words[i];
    }
  }

  /** The lookup loop over any lookup function: one call per word, the words
      found go into the bucket and counted as updated, the others counted as
      not found. */
  method Collect(words: seq<String>, find: String -> Result<String, DictError>)
    returns (bucket: map<String, String>, updated: nat, notFound: nat)
    ensures updated + notFound == |words|
    ensures updated == CountFound(words, find) && notFound == |words| - CountFound(words, find)
    ensures BucketOk(bucket, words, find)
  {
    bucket := map[];
    updated, notFound := 0, 0;
    var i := 0;
    while i < |words|
      invariant 0 <= i <= |words|
      invariant updated + notFound == i
      invariant updated == CountFound(words[..i], find)
      invariant BucketOk(bucket, words[..i], find)
    {
      var w := words[i];
      assert words[..i + 1] == words[..i] + [w];
      assert words[..i + 1][..i] == words[..i];
      var found := find(w);
      if found.Success? {
        bucket := bucket[w := found.value];
        updated := updated + 1;
      } else {
        notFound := notFound + 1;
      }
      i := i + 1;
    }
    assert words[..i] == words;
  }

  /** `findDefinition` with the part of speech of the pack fixed. */
  function Lookup(d: Defs, part: String): (find: String -> Result<String, DictError>)
    ensures forall w :: find(w) == FindDefinition(d, w, part)
  {
    w => FindDefinition(d, w, part)
  }

  datatype UpdateReport = UpdateReport(bucket: map<String, String>, updated: nat, notFound: nat)

  /** The word filter of `updateWordPack`, then one lookup per word: the
      words found, with their definitions, and how many were and were not. */
  method UpdateWordPack(d: Defs, lines: seq<String>, part: String) returns (r: Result<UpdateReport, UpdateError>)
    ensures r.Failure? <==> PackWords(lines) == []
    ensures r.Success? ==>
      && r.value.updated + r.value.notFound == |PackWords(lines)|
      && r.value.updated == CountFound(PackWords(lines), Lookup(d, part))
      && (forall w :: w in r.value.bucket <==> w in PackWords(lines) && FindDefinition(d, w, part).Success?)
      && (forall w :: w in r.value.bucket ==> r.value.bucket[w] == FindDefinition(d, w, part).value)
  {
    var words := PackWords(lines);
    if |words| == 0 {
      return Failure(EmptyWordPack);
    }
    var bucket, updated, notFound := Collect(words, Lookup(d, part));
    return Success(UpdateReport(bucket, updated, notFound));
  }
}

=== FILE: game.dfy ===
/** The session engine of the current revision (`internal/croc/game.go`):
    one session per chat, active exactly while it holds a secret word. The
    session cache is a plain map; sliding expiry and locking are not part of
    the model. */
module Game {
  import opened Wrappers
  import opened Text
  import opened Words
  import opened Registry
  import opened Catalog
  import opened Guess

  type ChatID = int
  type PlayerID = int

  /** The dictionary consulted for every new word: (language, part of speech,
      word) to definition text, "" when there is none. */
  type Dictionary = (String, String, String) -> String

  /** `gameConfig`. */
  datatype Session = Session(pack: WordPack, word: String, def: String, hostID: PlayerID) {
    predicate IsActive() {
      word != ""
    }

    predicate HasDefinition() {
      def != ""
    }

    /** `setNotActive`: ends the round, keeps the pack and the last host. */
    function SetNotActive(): (s: Session)
      ensures !s.IsActive() && !s.HasDefinition()
      ensures s.pack == pack && s.hostID == hostID
    {
      this.(word := "", def := "")
    }

    /** `checkGuess`. */
    predicate CheckGuess(playerID: PlayerID, guess: String) {
      Matches(hostID, word, playerID, guess)
    }
  }

  type Games = map<ChatID, Session>

  /** A session's pack is usable, a definition only exists with a word, and
      the word of a running round comes from the current pack. */
  ghost predicate SessionOk(s: Session) {
    && PackOk(s.pack)
    && (s.HasDefinition() ==> s.IsActive())
    && (s.IsActive() ==> s.word in s.pack.words)
  }

  ghost predicate GamesOk(games: Games) {
    forall c :: c in games ==> SessionOk(games[c])
  }

  /** One hour as a Go `time.Duration` (nanoseconds). */
  const Hour: int := 3_600_000_000_000

  /** The expiry clamp of `NewGame`: the configured idle time, raised to
      one hour when shorter. */
  function ClampExpiry(exp: int): (r: int)
    ensures r >= Hour && r >= exp
    ensures r == exp || r == Hour
  {
    if exp < Hour then Hour else exp
  }

  /** Clamping an already clamped value changes nothing. */
  lemma ClampExpiryIdempotent(exp: int)
    ensures ClampExpiry(ClampExpiry(exp)) == ClampExpiry(exp)
  {
  }

  /** `setWord`: draws a word from the session's pack and looks up its
      definition; a failed lookup leaves the definition empty. */
  function SetWord(s: Session, dict: Dictionary, roll: nat): (r: Session)
    requires PackOk(s.pack)
    ensures r.IsActive() && r.word in s.pack.words
    ensures r.def == dict(s.pack.langID, s.pack.part, r.word)
    ensures r.pack == s.pack && r.hostID == s.hostID
    ensures SessionOk(r)
  {
    var word := GetWord(s.pack, roll);
    s.(word := word, def := dict(s.pack.langID, s.pack.part, word))
  }

  lemma GamesOkUpdate(games: Games, chatID: ChatID, s: Session)
    requires GamesOk(games) && SessionOk(s)
    ensures GamesOk(games[chatID := s])
  {
  }

  /** The chat's stored preference, as read by `LoadChatConfig`; an empty
      pack ID means no pack was chosen. */
  datatype ChatConfig = ChatConfig(langID: String, packID: String)

  datatype GameError = PackNotChosen | NotHost | NoSuchPack(cause: LookupError)

  /** `Play`: starts a round with the chat's configured pack, hosted by the
      requester, and reports whether the word has a definition. It does not
      look at the current session: a running round is replaced. */
  function Play(games: Games, wdb: WordDB, dict: Dictionary, conf: ChatConfig, chatID: ChatID, hostID: PlayerID, roll: nat)
    : (r: (Games, Result<bool, GameError>))
    requires CatalogOk(wdb)
    ensures GamesOk(games) ==> GamesOk(r.0)
    ensures conf.packID == "" ==> r == (games, Failure(PackNotChosen))
    ensures r.1.Failure? ==> r.0 == games
    ensures r.1.Success? <==> conf.packID != "" && GetWordPack(wdb, conf.langID, conf.packID).Success?
    ensures r.1.Success? ==>
      && chatID in r.0 && r.0 == games[chatID := r.0[chatID]]
      && var s := r.0[chatID];
         s.IsActive() && s.hostID == hostID && s.pack == GetWordPack(wdb, conf.langID, conf.packID).value
         && s.word in s.pack.words && s.def == dict(s.pack.langID, s.pack.part, s.word)
         && r.1.value == s.HasDefinition()
  {
    if conf.packID == "" then (games, Failure(PackNotChosen))
    else
      match GetWordPack(wdb, conf.langID, conf.packID)
      case Failure(e) => (games, Failure(NoSuchPack(e)))
      case Success(pack) =>
        GetWordPackOk(wdb, conf.langID, conf.packID);
        var s := SetWord(Session(pack, "", "", hostID), dict, roll);
        (games[chatID := s], Success(s.HasDefinition()))
  }

  /** `SetWordPack`: without a session nothing happens and no error is
      reported; during a round only the host may switch, and the switch then
      re-rolls the word; between rounds only the pack changes. */
  function SetWordPack(games: Games, wdb: WordDB, dict: Dictionary, chatID: ChatID, playerID: PlayerID,
                       langID: String, packID: String, roll: nat)
    : (r: (Games, Result<(String, bool), GameError>))
    requires CatalogOk(wdb)
    ensures GamesOk(games) ==> GamesOk(r.0)
    ensures chatID !in games ==> r == (games, Success(("", false)))
    ensures r.1.Failure? ==> r.0 == games
    ensures chatID in games ==>
      (r.1.Failure? <==> (games[chatID].IsActive() && games[chatID].hostID != playerID)
                         || GetWordPack(wdb, langID, packID).Failure?)
    ensures chatID in games && r.1.Success? ==>
      && chatID in r.0 && r.0 == games[chatID := r.0[chatID]]
      && var before := games[chatID];
         var s := r.0[chatID];
         && s.pack == GetWordPack(wdb, langID, packID).value
         && s.hostID == before.hostID
         && s.IsActive() == before.IsActive()
         && (!before.IsActive() ==> s.word == before.word && s.def == before.def)
         && (before.IsActive() ==> s.word in s.pack.words && s.def == dict(s.pack.langID, s.pack.part, s.word))
         && r.1.value == (s.word, s.HasDefinition())
    ensures GamesOk(games) && chatID in games && !games[chatID].IsActive() ==> r.1.Success? ==> r.1.value == ("", false)
  {
    if chatID !in games then (games, Success(("", false)))
    else
      var s := games[chatID];
      if s.IsActive() && s.hostID != playerID then (games, Failure(NotHost))
      else
        match GetWordPack(wdb, langID, packID)
        case Failure(e) => (games, Failure(NoSuchPack(e)))
        case Success(pack) =>
          GetWordPackOk(wdb, langID, packID);
          var s1 := s.(pack := pack);
          var s2 := if s1.IsActive() then SetWord(s1, dict, roll) else s1;
          (games[chatID := s2], Success((s2.word, s2.HasDefinition())))
  }

  /** `Stop`: succeeds without effect when no round runs, refuses anyone but
      the host, and otherwise ends the round keeping the host. */
  function Stop(games: Games, chatID: ChatID, playerID: PlayerID): (r: (Games, bool))
    ensures GamesOk(games) ==> GamesOk(r.0)
    ensures r.1 <==> chatID !in games || !games[chatID].IsActive() || games[chatID].hostID == playerID
    ensures chatID !in games || !games[chatID].IsActive() || !r.1 ==> r.0 == games
    ensures chatID in games && games[chatID].IsActive() && r.1 ==>
      && chatID in r.0 && r.0 == games[chatID := r.0[chatID]]
      && !r.0[chatID].IsActive() && !r.0[chatID].HasDefinition()
      && r.0[chatID].hostID == games[chatID].hostID && r.0[chatID].pack == games[chatID].pack
  {
    if chatID !in games || !games[chatID].IsActive() then (games, true)
    else if games[chatID].hostID != playerID then (games, false)
    else (games[chatID := games[chatID].SetNotActive()], true)
  }

  /** `CheckGuess`: a matching guess ends the round and hands back the word
      and its definition; anything else changes nothing. */
  function CheckGuess(games: Games, chatID: ChatID, playerID: PlayerID, guess: String): (r: (Games, String, String, bool))
    ensures GamesOk(games) ==> GamesOk(r.0)
    ensures r.3 <==> chatID in games && Matches(games[chatID].hostID, games[chatID].word, playerID, guess)
    ensures !r.3 ==> r.0 == games && r.1 == "" && r.2 == ""
    ensures r.3 ==>
      && r.1 == games[chatID].word && r.1 != "" && r.2 == games[chatID].def
      && chatID in r.0 && r.0 == games[chatID := r.0[chatID]]
      && !r.0[chatID].IsActive() && !r.0[chatID].HasDefinition()
      && r.0[chatID].hostID == games[chatID].hostID && r.0[chatID].pack == games[chatID].pack
  {
    if chatID !in games then (games, "", "", false)
    else
      var s := games[chatID];
      if !s.CheckGuess(playerID, guess) then (games, "", "", false)
      else (games[chatID := s.SetNotActive()], s.word, s.def, true)
  }

  /** `NextWord`: between rounds, the caller becomes host of a new round
      drawn from the session's pack; refused without a session or during a
      round. */
  function NextWord(games: Games, dict: Dictionary, chatID: ChatID, hostID: PlayerID, roll: nat): (r: (Games, String, bool, bool))
    requires GamesOk(games)
    ensures GamesOk(r.0)
    ensures r.3 <==> chatID in games && !games[chatID].IsActive()
    ensures !r.3 ==> r.0 == games && r.1 == "" && !r.2
    ensures r.3 ==>
      && chatID in r.0 && r.0 == games[chatID := r.0[chatID]]
      && var s := r.0[chatID];
         s.IsActive() && s.hostID == hostID && s.pack == games[chatID].pack && s.word in s.pack.words
         && s.def == dict(s.pack.langID, s.pack.part, s.word)
         && r.1 == s.word && r.2 == s.HasDefinition()
  {
    if chatID !in games || games[chatID].IsActive() then (games, "", false, false)
    else
      assert SessionOk(games[chatID]);
      var s := SetWord(games[chatID].(hostID := hostID), dict, roll);
      GamesOkUpdate(games, chatID, s);
      (games[chatID := s], s.word, s.HasDefinition(), true)
  }

  /** `SkipWord`: the host of a running round gets a fresh word from the
      same pack and stays host; everyone else is refused. */
  function SkipWord(games: Games, dict: Dictionary, chatID: ChatID, playerID: PlayerID, roll: nat): (r: (Games, String, bool, bool))
    requires GamesOk(games)
    ensures GamesOk(r.0)
    ensures r.3 <==> chatID in games && games[chatID].IsActive() && games[chatID].hostID == playerID
    ensures !r.3 ==> r.0 == games && r.1 == "" && !r.2
    ensures r.3 ==>
      && chatID in r.0 && r.0 == games[chatID := r.0[chatID]]
      && var s := r.0[chatID];
         s.IsActive() && s.hostID == playerID && s.pack == games[chatID].pack && s.word in s.pack.words
         && s.def == dict(s.pack.langID, s.pack.part, s.word)
         && r.1 == s.word && r.2 == s.HasDefinition()
  {
    if chatID !in games || !games[chatID].IsActive() || games[chatID].hostID != playerID then (games, "", false, false)
    else
      assert SessionOk(games[chatID]);
      var s := SetWord(games[chatID], dict, roll);
      GamesOkUpdate(games, chatID, s);
      (games[chatID := s], s.word, s.HasDefinition(), true)
  }

  /** `GetWord`: only the host of a running round may see the word. */
  function GetWordOf(games: Games, chatID: ChatID, playerID: PlayerID): (r: (String, bool))
    ensures r.1 <==> chatID in games && games[chatID].IsActive() && games[chatID].hostID == playerID
    ensures r.1 ==> r.0 == games[chatID].word && r.0 != ""
    ensures !r.1 ==> r.0 == ""
  {
    if chatID !in games || !games[chatID].IsActive() || games[chatID].hostID != playerID then ("", false)
    else (games[chatID].word, true)
  }

  /** `GetDefinition`: as `GetWord`, and only when a definition exists. */
  function GetDefinition(games: Games, chatID: ChatID, playerID: PlayerID): (r: (String, bool))
    ensures r.1 <==> GetWordOf(games, chatID, playerID).1 && games[chatID].HasDefinition()
    ensures r.1 ==> r.0 == games[chatID].def && r.0 != ""
    ensures !r.1 ==> r.0 == ""
  {
    if chatID !in games || !games[chatID].IsActive() || games[chatID].hostID != playerID then ("", false)
    else if !games[chatID].HasDefinition() then ("", false)
    else (games[chatID].def, true)
  }

  /** `GetActiveGames`: every chat with a running round, each once. The
      order of Go's map iteration is unspecified, and so is the order here. */
  method GetActiveGames(games: Games) returns (ids: seq<ChatID>)
    ensures forall c :: c in ids <==> c in games && games[c].IsActive()
    ensures forall i, j :: 0 <= i < j < |ids| ==> ids[i] != ids[j]
  {
    ids := [];
    var rest := games.Keys;
    while rest != {}
      invariant rest <= games.Keys
      invariant forall c :: c in ids <==> c in games && c !in rest && games[c].IsActive()
      invariant forall i, j :: 0 <= i < j < |ids| ==> ids[i] != ids[j]
      decreases rest
    {
      assert (forall x :: x !in rest) ==> rest == {};
      var id :| id in rest;
      if games[id].IsActive() {
        ids := ids + [id];
      }
      rest := rest - {id};
    }
  }

  /** Stopping twice as host: both calls succeed and the second one changes
      nothing. */
  lemma StopTwice(games: Games, chatID: ChatID, hostID: PlayerID)
    requires chatID in games && games[chatID].hostID == hostID
    ensures var (g1, ok1) := Stop(games, chatID, hostID);
            var (g2, ok2) := Stop(g1, chatID, hostID);
      ok1 && ok2 && g2 == g1 && !g2[chatID].IsActive() && g2[chatID].hostID == hostID
  {
  }

  /** `Play` does not check for a running round: whoever calls it takes over
      as host of a fresh round, even from the current host. */
  lemma PlayTakesOverRunningRound(games: Games, wdb: WordDB, dict: Dictionary, conf: ChatConfig,
                                  chatID: ChatID, playerID: PlayerID, roll: nat)
    requires CatalogOk(wdb)
    requires chatID in games && games[chatID].IsActive() && games[chatID].hostID != playerID
    requires conf.packID != "" && GetWordPack(wdb, conf.langID, conf.packID).Success?
    ensures var (g, res) := Play(games, wdb, dict, conf, chatID, playerID, roll);
      res.Success? && g[chatID].IsActive() && g[chatID].hostID == playerID
  {
  }

  /** After a correct guess the round is over, so the winner (or anybody)
      can claim the next word and become host; the engine itself does not
      hand the round over. */
  lemma WinnerCanHostNext(games: Games, dict: Dictionary, chatID: ChatID, playerID: PlayerID, guess: String, roll: nat)
    requires GamesOk(games)
    requires CheckGuess(games, chatID, playerID, guess).3
    ensures var g := CheckGuess(games, chatID, playerID, guess).0;
      && g[chatID].hostID == games[chatID].hostID
      && var (g2, word, _, ok) := NextWord(g, dict, chatID, playerID, roll);
         ok && g2[chatID].hostID == playerID && word in games[chatID].pack.words
  {
  }

  /** A guess of `word` wrapped in ", " and "!" is accepted when the word has
      no cut-set character at either end and the text stays within the
      length bound. */
  lemma PaddedWordMatches(hostID: PlayerID, playerID: PlayerID, word: String)
    requires hostID != playerID && word != "" && Untrimmable(word, Cutset)
    requires |word| >= 3 && forall i :: 0 <= i < |word| ==> word[i] as int < 0x80
    ensures Matches(hostID, word, playerID, ", " + word + "!")
  {
    var guess := ", " + word + "!";
    assert forall i :: 0 <= i < |guess| ==> guess[i] as int < 0x80 by {
      assert forall i :: 2 <= i < |guess| - 1 ==> guess[i] == word[i - 2];
    }
    Utf8LenBounds(guess);
    Utf8LenBounds(word);
    assert AllDropped(", ", Cutset) && AllDropped("!", Cutset);
    MatchesPadded(hostID, word, playerID, ", ", word, "!");
  }

  /** A catalog holding one pack {"apple", "mango"}, loaded into an empty
      registry. */
  lemma FruitCatalog()
    ensures var (wdb, loaded) := LoadWordPack(Empty(), ["apple", "mango"], "en", "fruit", "", "English", "Fruit");
      && loaded == Pass && CatalogOk(wdb)
      && GetWordPack(wdb, "en", "fruit") == Success(WordPack("en", "fruit", "", ["apple", "mango"]))
  {
    assert 'a' !in Spaces && 'e' !in Spaces && 'm' !in Spaces && 'o' !in Spaces;
    PackWordsOfWords(["apple", "mango"]);
    EmptyCatalogOk();
  }

  /** Both fruit words are ASCII without cut-set characters at their ends. */
  lemma FruitWordsPlain(word: String)
    requires word in ["apple", "mango"]
    ensures |word| >= 3 && Untrimmable(word, Cutset)
    ensures forall i :: 0 <= i < |word| ==> word[i] as int < 0x80
  {
    assert 'a' !in Cutset && 'e' !in Cutset && 'm' !in Cutset && 'o' !in Cutset;
    if word == "apple" {
      assert word[0] == 'a' && word[4] == 'e';
    } else {
      assert word[0] == 'm' && word[4] == 'o';
    }
  }

  /** A pack {"apple", "mango"}: host 1 plays, the host skips a word, and
      player 2 sends the current word with surrounding punctuation and wins
      it. */
  lemma AppleMangoRound(dict: Dictionary, chatID: ChatID, roll1: nat, roll2: nat)
    ensures
      var wdb := LoadWordPack(Empty(), ["apple", "mango"], "en", "fruit", "", "English", "Fruit").0;
      var (g1, played) := Play(map[], wdb, dict, ChatConfig("en", "fruit"), chatID, 1, roll1);
      var (g2, word, _, skipped) := SkipWord(g1, dict, chatID, 1, roll2);
      var (g3, won, _, guessed) := CheckGuess(g2, chatID, 2, ", " + word + "!");
      && played.Success?
      && g1[chatID].IsActive() && g1[chatID].hostID == 1 && g1[chatID].word in ["apple", "mango"]
      && skipped && word in ["apple", "mango"] && g2[chatID].hostID == 1
      && guessed && won == word && !g3[chatID].IsActive()
  {
    FruitCatalog();
    var wdb := LoadWordPack(Empty(), ["apple", "mango"], "en", "fruit", "", "English", "Fruit").0;
    var (g1, played) := Play(map[], wdb, dict, ChatConfig("en", "fruit"), chatID, 1, roll1);
    assert GamesOk(map[]);
    var (g2, word, _, skipped) := SkipWord(g1, dict, chatID, 1, roll2);
    FruitWordsPlain(word);
    PaddedWordMatches(1, 2, word);
  }
}

=== FILE: glossary.dfy ===
/** The definitions gathered for one dictionary word (`glossary`): the
    distinct senses in order of appearance, and how they are rendered. */
module Glossary {
  import opened Text

  /** One sense of a parsed dictionary record. */
  datatype Sense = Sense(glosses: seq<String>, rawGlosses: seq<String>)

  /** One parsed dictionary record (`wordDef`); a record without a word is a
      redirect named by its title. */
  datatype WordDef = WordDef(word: String, pos: String, langCode: String, title: String,
                             redirect: String, senses: seq<Sense>)

  datatype Glossary = Glossary(senses: seq<String>, redirect: String)

  /** No blank sense and no sense repeated right after itself. */
  predicate GlossaryOk(g: Glossary) {
    && (forall i :: 0 <= i < |g.senses| ==> g.senses[i] != "")
    && (forall i :: 0 <= i < |g.senses| - 1 ==> g.senses[i] != g.senses[i + 1])
  }

  /** The text a sense contributes: its first raw gloss, else its first
      gloss, else nothing. */
  function Candidate(s: Sense): String {
    if |s.rawGlosses| > 0 then s.rawGlosses[0]
    else if |s.glosses| > 0 then s.glosses[0]
    else ""
  }

  /** `lastSense`. */
  function LastSense(g: Glossary): (r: String)
    ensures |g.senses| > 0 ==> r in g.senses
    ensures GlossaryOk(g) ==> (r == "" <==> |g.senses| == 0)
  {
    if |g.senses| == 0 then "" else g.senses[|g.senses| - 1]
  }

  /** One step of `addSenses`. */
  function AddSense(g: Glossary, sense: String): Glossary {
    if sense == "" || sense == LastSense(g) then g
    else g.(senses := g.senses + [sense])
  }

  /** One step keeps a well-formed glossary well formed. */
  lemma AddSenseOk(g: Glossary, sense: String)
    ensures GlossaryOk(g) ==> GlossaryOk(AddSense(g, sense))
  {
    if GlossaryOk(g) && sense != "" && sense != LastSense(g) {
      var s := g.senses + [sense];
      assert forall i :: 0 <= i < |g.senses| ==> s[i] == g.senses[i];
    }
  }

  /** `addSenses`: the senses' candidates in order, skipping blanks and a
      repeat of the sense just before. */
  function AddSenses(g: Glossary, senses: seq<Sense>): (r: Glossary)
    ensures r.redirect == g.redirect
    ensures |g.senses| <= |r.senses| <= |g.senses| + |senses| && r.senses[..|g.senses|] == g.senses
    ensures GlossaryOk(g) ==> GlossaryOk(r)
    decreases |senses|
  {
    if senses == [] then g
    else
      var g1 := AddSense(g, Candidate(senses[0]));
      AddSenseOk(g, Candidate(senses[0]));
      var r := AddSenses(g1, senses[1..]);
      assert r.senses[..|g.senses|] == r.senses[..|g1.senses|][..|g.senses|];
      r
  }

  /** Every non-blank candidate ends up in the glossary. */
  lemma {:induction false} AddSensesKeeps(g: Glossary, senses: seq<Sense>)
    ensures forall i :: 0 <= i < |senses| && Candidate(senses[i]) != "" ==> Candidate(senses[i]) in AddSenses(g, senses).senses
    decreases |senses|
  {
    if senses != [] {
      var g1 := AddSense(g, Candidate(senses[0]));
      var r := AddSenses(g1, senses[1..]);
      AddSensesKeeps(g1, senses[1..]);
      assert forall i :: 1 <= i < |senses| ==> senses[i] == senses[1..][i - 1];
      if Candidate(senses[0]) != "" {
        assert Candidate(senses[0]) in g1.senses;
        assert forall x :: x in g1.senses ==> x in r.senses[..|g1.senses|];
      }
    }
  }

  /** Nothing but the glossary's own senses and the candidates gets in. */
  lemma {:induction false} AddSensesOnly(g: Glossary, senses: seq<Sense>)
    ensures forall x :: x in AddSenses(g, senses).senses ==>
      x in g.senses || exists i :: 0 <= i < |senses| && Candidate(senses[i]) == x
    decreases |senses|
  {
    if senses != [] {
      var g1 := AddSense(g, Candidate(senses[0]));
      AddSensesOnly(g1, senses[1..]);
      forall x | x in AddSenses(g, senses).senses
        ensures x in g.senses || exists i :: 0 <= i < |senses| && Candidate(senses[i]) == x
      {
        if x !in g.senses {
          if x in g1.senses {
            assert Candidate(senses[0]) == x;
          } else {
            var j :| 0 <= j < |senses[1..]| && Candidate(senses[1..][j]) == x;
            assert Candidate(senses[j + 1]) == x;
          }
        }
      }
    }
  }

  /** Merging two records of one key is adding their senses in one go. */
  lemma {:induction false} AddSensesAppend(g: Glossary, a: seq<Sense>, b: seq<Sense>)
    ensures AddSenses(g, a + b) == AddSenses(AddSenses(g, a), b)
    decreases |a|
  {
    if a == [] {
      assert a + b == b;
    } else {
      assert (a + b)[0] == a[0] && (a + b)[1..] == a[1..] + b;
      AddSensesAppend(AddSense(g, Candidate(a[0])), a[1..], b);
    }
  }

  /** `newGlossary`: the record's senses; the redirect is never filled in. */
  function NewGlossary(wd: WordDef): (r: Glossary)
    ensures GlossaryOk(r) && r.redirect == ""
    ensures forall x :: x in r.senses <==> x != "" && exists i :: 0 <= i < |wd.senses| && Candidate(wd.senses[i]) == x
  {
    var r := AddSenses(Glossary([], ""), wd.senses);
    AddSensesKeeps(Glossary([], ""), wd.senses);
    AddSensesOnly(Glossary([], ""), wd.senses);
    r
  }

  /** A sense repeated in a row is recorded once, and a sense without text
      is skipped. */
  lemma RepeatCollapses(x: String)
    requires x != ""
    ensures AddSenses(Glossary([], ""), [Sense([], [x]), Sense([], [x]), Sense([], [])]).senses == [x]
  {
    var s, e := Sense([], [x]), Sense([], []);
    var g1 := Glossary([x], "");
    assert AddSense(Glossary([], ""), x) == g1;
    assert [s, s, e][1..] == [s, e] && [s, e][1..] == [e];
    assert AddSenses(g1, [e]) == g1;
    assert AddSenses(g1, [s, e]) == g1;
  }

  /** A sense repeated one sense apart is recorded twice. */
  lemma RepeatApartKept(x: String, y: String)
    requires x != "" && y != "" && x != y
    ensures AddSenses(Glossary([], ""), [Sense([], [x]), Sense([y], []), Sense([], [x])]).senses == [x, y, x]
  {
    var s, t := Sense([], [x]), Sense([y], []);
    var g1, g2, g3 := Glossary([x], ""), Glossary([x, y], ""), Glossary([x, y, x], "");
    assert AddSense(Glossary([], ""), x) == g1;
    assert AddSense(g1, y) == g2;
    assert AddSense(g2, x) == g3;
    assert [s, t, s][1..] == [t, s] && [t, s][1..] == [s];
    assert AddSenses(g2, [s]) == g3;
    assert AddSenses(g1, [t, s]) == g3;
  }

  /** The same two rules on concrete senses. */
  lemma AdjacentRepeatsCollapse()
    ensures var s := Sense([], ["to run"]);
      var t := Sense(["to walk"], []);
      && AddSenses(Glossary([], ""), [s, s, Sense([], [])]).senses == ["to run"]
      && AddSenses(Glossary([], ""), [s, t, s]).senses == ["to run", "to walk", "to run"]
  {
    assert "to run"[3] != "to walk"[3];
    RepeatCollapses("to run");
    RepeatApartKept("to run", "to walk");
  }

  /** `%d` for a non-negative number. */
  function DecimalString(n: nat): (r: String)
    ensures |r| >= 1 && forall i :: 0 <= i < |r| ==> '0' <= r[i] <= '9'
    ensures |r| > 1 ==> r[0] != '0'
  {
    if n < 10 then [(('0' as int) + n) as char]
    else DecimalString(n / 10) + [(('0' as int) + n % 10) as char]
  }

  function ParseDecimal(s: String): nat
    requires forall i :: 0 <= i < |s| ==> '0' <= s[i] <= '9'
  {
    if s == [] then 0
    else 10 * ParseDecimal(s[..|s| - 1]) + ((s[|s| - 1] as int) - ('0' as int))
  }

  /** The decimal rendering reads back as the number it renders. */
  lemma {:induction false} DecimalRoundTrip(n: nat)
    ensures ParseDecimal(DecimalString(n)) == n
  {
    if n >= 10 {
      DecimalRoundTrip(n / 10);
      var s := DecimalString(n);
      assert s[..|s| - 1] == DecimalString(n / 10);
    }
  }

  /** One numbered line, `i) sense`. */
  function Line(i: nat, sense: String): String {
    DecimalString(i) + ") " + sense + "\n"
  }

  /** The numbered lines for `senses`, the first numbered `first`. */
  function Lines(senses: seq<String>, first: nat): String
    decreases |senses|
  {
    if senses == [] then "" else Line(first, senses[0]) + Lines(senses[1..], first + 1)
  }

  lemma {:induction false} LinesAppend(senses: seq<String>, x: String, first: nat)
    ensures Lines(senses + [x], first) == Lines(senses, first) + Line(first + |senses|, x)
    decreases |senses|
  {
    if senses != [] {
      assert (senses + [x])[1..] == senses[1..] + [x];
      LinesAppend(senses[1..], x, first + 1);
    }
  }

  /** What `getDefinition` renders: a single sense as it is, otherwise the
      numbered list (empty for no senses). */
  function Definition(g: Glossary): String {
    if |g.senses| == 1 then g.senses[0] else Lines(g.senses, 1)
  }

  /** `getDefinition`, with its accumulating loop. */
  method GetDefinition(g: Glossary) returns (def: String)
    ensures def == Definition(g)
    ensures |g.senses| == 0 ==> def == ""
    ensures |g.senses| >= 2 ==> def[..|Line(1, g.senses[0])|] == Line(1, g.senses[0])
  {
    if |g.senses| == 1 {
      return g.senses[0];
    }
    def := "";
    var i := 0;
    while i < |g.senses|
      invariant 0 <= i <= |g.senses|
      invariant def == Lines(g.senses[..i], 1)
    {
      LinesAppend(g.senses[..i], g.senses[i], 1);
      assert g.senses[..i + 1] == g.senses[..i] + [g.senses[i]];
      def := def + Line(i + 1, g.senses[i]);
      i := i + 1;
    }
    assert g.senses[..i] == g.senses;
  }

  /** Two senses render as two numbered lines. */
  lemma TwoSensesNumbered(x: String, y: String)
    ensures Definition(Glossary([x, y], "")) == "1) " + x + "\n" + "2) " + y + "\n"
  {
    assert DecimalString(1) == "1" && DecimalString(2) == "2";
    assert [x, y][1..] == [y] && [y][1..] == [];
    assert Lines([y], 2) == Line(2, y);
    assert Lines([x, y], 1) == Line(1, x) + Line(2, y);
  }
}

=== FILE: guess.dfy ===
/** The guess matcher `gameConfig.checkGuess`, identical in both revisions. */
module Guess {
  import opened Text

  /** The characters `strings.Trim` strips from both ends of a guess, given
      in the Go code as the cut-set string `"!?,;:.^&/\\\n\t "`. */
  const Cutset: set<char> := {'!', '?', ',', ';', ':', '.', '^', '&', '/', '\\', '\n', '\t', ' '}

  /** The guess with the cut set trimmed off (`strings.Trim`) and lower-cased. */
  function Normalize(guess: String): (r: String)
    ensures |r| <= |guess|
    ensures Untrimmable(r, Cutset)
  {
    LowerKeepsUntrimmable(TrimFunc(guess, Cutset));
    Lower(TrimFunc(guess, Cutset))
  }

  /** Lower-casing never turns a character into one of the cut set: the cut
      set lies below U+0060 and every folded capital lands above it. */
  lemma LowerOutsideCutset(c: char)
    requires c !in Cutset
    ensures LowerChar(c) !in Cutset
  {
    assert forall x :: x in Cutset ==> x as int < 0x60;
    if IsUpper(c) {
      assert LowerChar(c) as int >= 0x61;
    }
  }

  lemma LowerKeepsUntrimmable(t: String)
    requires Untrimmable(t, Cutset)
    ensures Untrimmable(Lower(t), Cutset)
  {
    if |t| > 0 {
      LowerOutsideCutset(t[0]);
      LowerOutsideCutset(t[|t| - 1]);
    }
  }

  /** A normalized guess normalizes to itself. */
  lemma NormalizeIdempotent(guess: String)
    ensures Normalize(Normalize(guess)) == Normalize(guess)
  {
    var r := Normalize(guess);
    TrimFuncPadded([], r, [], Cutset);
    assert [] + r + [] == r;
    LowerIdempotent(TrimFunc(guess, Cutset));
  }

  /** `checkGuess(playerID, guess)` on a session hosted by `hostID` whose
      secret word is `word` ("" when no round is running). The length bound
      is on the raw guess in UTF-8 bytes, before trimming. */
  function Matches(hostID: int, word: String, playerID: int, guess: String): (r: bool)
    ensures r <==>
      && playerID != hostID
      && word != ""
      && Utf8Len(guess) <= 2 * Utf8Len(word)
      && Normalize(guess) == Lower(word)
  {
    if hostID == playerID then false
    else if word == "" then false
    else if Utf8Len(guess) > 2 * Utf8Len(word) then false
    else Normalize(guess) == Lower(word)
  }

  /** A match means: not the host, a round is running, the raw guess is at
      most twice as long as the word, and the guess is the word up to case,
      padded on both sides with characters of the cut set only. */
  lemma MatchesShape(hostID: int, word: String, playerID: int, guess: String) returns (lo: nat, hi: nat)
    requires Matches(hostID, word, playerID, guess)
    ensures playerID != hostID && word != ""
    ensures Utf8Len(guess) <= 2 * Utf8Len(word)
    ensures lo <= hi <= |guess|
    ensures AllDropped(guess[..lo], Cutset) && AllDropped(guess[hi..], Cutset)
    ensures Lower(guess[lo..hi]) == Lower(word)
  {
    assert Normalize(guess) == Lower(word);
    lo, hi := NormalizedShape(guess, word);
  }

  /** A guess that normalizes to `word` is `word` up to case between two
      runs of cut-set characters. */
  lemma NormalizedShape(guess: String, word: String) returns (lo: nat, hi: nat)
    requires Normalize(guess) == Lower(word)
    ensures lo <= hi <= |guess|
    ensures AllDropped(guess[..lo], Cutset) && AllDropped(guess[hi..], Cutset)
    ensures Lower(guess[lo..hi]) == Lower(word)
  {
    var t := TrimFunc(guess, Cutset);
    lo := TrimStart(guess, Cutset);
    hi := lo + |t|;
    TrimFuncInfix(guess, Cutset);
    TrimFuncOutside(guess, Cutset);
  }

  /** Conversely, a non-host who sends the word in any letter case, wrapped
      in characters of the cut set, wins, as long as the raw text respects
      the length bound. */
  lemma MatchesPadded(hostID: int, word: String, playerID: int, pre: String, m: String, post: String)
    requires playerID != hostID && word != ""
    requires AllDropped(pre, Cutset) && AllDropped(post, Cutset) && Untrimmable(m, Cutset)
    requires Lower(m) == Lower(word)
    requires Utf8Len(pre + m + post) <= 2 * Utf8Len(word)
    ensures Matches(hostID, word, playerID, pre + m + post)
  {
    TrimFuncPadded(pre, m, post, Cutset);
  }

  /** The host never guesses, whatever the text. */
  lemma HostNeverMatches(hostID: int, word: String, guess: String)
    ensures !Matches(hostID, word, hostID, guess)
  {
  }

  /** The length bound applies to the raw text: "...ab" is rejected for the
      word "ab" although it trims to it, while ".AB." is accepted. */
  lemma MatchesBoundBeforeTrim()
    ensures !Matches(1, "ab", 2, "...ab")
    ensures Matches(1, "ab", 2, ".AB.")
  {
    assert Utf8Len("...ab") == 5 && Utf8Len("ab") == 2 by {
      Utf8LenBounds("...ab");
      Utf8LenBounds("ab");
    }
    assert Utf8Len(".AB.") == 4 by {
      Utf8LenBounds(".AB.");
    }
    assert ".AB." == "." + "AB" + ".";
    MatchesPadded(1, "ab", 2, ".", "AB", ".");
  }

  /** Case is ignored beyond ASCII: "ёж" wins against the word "Ёж". */
  lemma MatchesCyrillicCase()
    ensures Matches(1, "\U{0401}\U{0436}", 2, "\U{0451}\U{0436}")
  {
    var guess, word := "\U{0451}\U{0436}", "\U{0401}\U{0436}";
    assert Lower(guess) == Lower(word) by {
      assert LowerChar(guess[0]) == LowerChar(word[0]);
    }
    Utf8LenLower(guess);
    Utf8LenLower(word);
    assert guess[0] !in Cutset && guess[1] !in Cutset;
    assert "" + guess + "" == guess;
    MatchesPadded(1, word, 2, "", guess, "");
  }


}

=== FILE: legacy_catalog.dfy ===
/** The word catalog of the earlier revision (root `word_db.go`): a word pack
    is just its list of words, held in the same registry. */
module LegacyCatalog {
  import opened Wrappers
  import opened Text
  import opened Words
  import opened Registry

  type WordPack = seq<String>

  type WordDB = Registry<WordPack>

  ghost predicate PackStoredOk(db: WordDB, l: String, p: String)
    requires l in db.packs && p in db.packs[l]
  {
    WordsOk(db.packs[l][p])
  }

  ghost predicate CatalogOk(db: WordDB) {
    && Valid(db)
    && forall l, p :: l in db.packs && p in db.packs[l] ==> PackStoredOk(db, l, p)
  }

  /** Every pack the catalog hands out is usable. */
  lemma GetWordPackOk(db: WordDB, langID: String, packID: String)
    requires CatalogOk(db)
    ensures GetWordPack(db, langID, packID).Success? ==> WordsOk(GetWordPack(db, langID, packID).value)
  {
    if GetWordPack(db, langID, packID).Success? {
      assert PackStoredOk(db, langID, packID);
    }
  }

  /** `WordPack.GetWord`: some word of the pack, never a blank one. */
  function GetWord(pack: WordPack, roll: nat): (w: String)
    requires WordsOk(pack)
    ensures w in pack && w != ""
  {
    PickWord(pack, roll)
  }

  /** `loadWordPack` once the file has been read into lines. */
  function LoadPack(lines: seq<String>): (r: Result<WordPack, PackError>)
    ensures r.Failure? <==> PackWords(lines) == []
    ensures r.Success? ==> WordsOk(r.value) && r.value == PackWords(lines)
  {
    var words := PackWords(lines);
    PackWordsAreWords(lines);
    if |words| == 0 then Failure(EmptyPack) else Success(words)
  }

  /** `WordDB.LoadWordPack`: a failed load changes nothing, a successful one
      makes the pack findable under its IDs; the catalog stays well formed. */
  function LoadWordPack(db: WordDB, lines: seq<String>, langID: String, packID: String,
                        langName: String, packName: String): (r: (WordDB, Outcome<PackError>))
    requires CatalogOk(db)
    ensures CatalogOk(r.0)
    ensures r.1.Fail? <==> PackWords(lines) == []
    ensures r.1.Fail? ==> r.0 == db
    ensures r.1.Pass? ==> GetWordPack(r.0, langID, packID) == Success(PackWords(lines))
  {
    match LoadPack(lines)
    case Failure(e) => (db, Fail(e))
    case Success(pack) =>
      RegisterKeepsCatalog(db, langID, packID, langName, packName, pack);
      RegisterFindable(db, langID, packID, langName, packName, pack);
      (Register(db, langID, packID, langName, packName, pack), Pass)
  }

  /** Registering a usable pack under its own IDs keeps the catalog well
      formed. */
  lemma RegisterKeepsCatalog(db: WordDB, langID: String, packID: String, langName: String, packName: String, pack: WordPack)
    requires CatalogOk(db) && WordsOk(pack)
    ensures CatalogOk(Register(db, langID, packID, langName, packName, pack))
  {
    var r := Register(db, langID, packID, langName, packName, pack);
    RegisterValid(db, langID, packID, langName, packName, pack);
    RegisterFindable(db, langID, packID, langName, packName, pack);
    forall l, p | l in r.packs && p in r.packs[l]
      ensures PackStoredOk(r, l, p)
    {
      if (l, p) != (langID, packID) {
        RegisterFramePacks(db, langID, packID, langName, packName, pack, l, p);
        assert PackStoredOk(db, l, p);
      }
    }
  }

  /** The registry effects of a successful load, as in the current revision. */
  lemma LoadWordPackEffect(db: WordDB, lines: seq<String>, langID: String, packID: String,
                           langName: String, packName: String)
    requires CatalogOk(db) && PackWords(lines) != []
    ensures var db' := LoadWordPack(db, lines, langID, packID, langName, packName).0;
      && GetLanguageIDs(db') == (if langID in db.langIDs then db.langIDs else db.langIDs + [langID])
      && GetLanguageName(db', langID) == Success(if langID in db.langIDs then db.langNames[langID] else langName)
      && GetWordPackIDs(db', langID) == Success((if langID in db.langIDs then db.packIDs[langID] else []) + [packID])
      && GetWordPackName(db', langID, packID) == Success(packName)
  {
    var pack := PackWords(lines);
    RegisterLanguage(db, langID, packID, langName, packName, pack);
    RegisterPack(db, langID, packID, langName, packName, pack);
  }
}

=== FILE: legacy_game.dfy ===
/** The session engine of the earlier revision (root `game.go`): the same
    state machine without definitions, over packs that are plain word lists.
    Forgetting definitions maps the current engine onto this one, step for
    step. */
module LegacyGame {
  import opened Wrappers
  import opened Text
  import opened Words
  import opened Registry
  import opened LegacyCatalog
  import opened Guess
  import Catalog
  import Game

  type ChatID = int
  type PlayerID = int

  datatype Session = Session(pack: seq<String>, word: String, hostID: PlayerID) {
    predicate IsActive() {
      word != ""
    }

    function SetNotActive(): (s: Session)
      ensures !s.IsActive() && s.pack == pack && s.hostID == hostID
    {
      this.(word := "")
    }

    predicate CheckGuess(playerID: PlayerID, guess: String) {
      Matches(hostID, word, playerID, guess)
    }
  }

  type Games = map<ChatID, Session>

  ghost predicate SessionOk(s: Session) {
    WordsOk(s.pack) && (s.IsActive() ==> s.word in s.pack)
  }

  ghost predicate GamesOk(games: Games) {
    forall c :: c in games ==> SessionOk(games[c])
  }

  /** `gameConfig.setWord`: a word drawn from the session's pack. */
  function SetWord(s: Session, roll: nat): (r: Session)
    requires WordsOk(s.pack)
    ensures r.IsActive() && r.word in s.pack
    ensures r.pack == s.pack && r.hostID == s.hostID
    ensures SessionOk(r)
  {
    s.(word := GetWord(s.pack, roll))
  }

  /** `Play`: a fresh round with the chat's configured pack, hosted by the
      requester, replacing whatever session the chat had; returns the word. */
  function Play(games: Games, wdb: WordDB, conf: Game.ChatConfig, chatID: ChatID, hostID: PlayerID, roll: nat)
    : (r: (Games, Result<String, Game.GameError>))
    requires CatalogOk(wdb)
    ensures GamesOk(games) ==> GamesOk(r.0)
    ensures conf.packID == "" ==> r == (games, Failure(Game.PackNotChosen))
    ensures r.1.Failure? ==> r.0 == games
    ensures r.1.Success? <==> conf.packID != "" && GetWordPack(wdb, conf.langID, conf.packID).Success?
    ensures r.1.Success? ==>
      && chatID in r.0 && r.0 == games[chatID := r.0[chatID]]
      && var s := r.0[chatID];
         s.IsActive() && s.hostID == hostID && s.pack == GetWordPack(wdb, conf.langID, conf.packID).value
         && r.1.value == s.word && s.word in s.pack
  {
    if conf.packID == "" then (games, Failure(Game.PackNotChosen))
    else
      match GetWordPack(wdb, conf.langID, conf.packID)
      case Failure(e) => (games, Failure(Game.NoSuchPack(e)))
      case Success(pack) =>
        GetWordPackOk(wdb, conf.langID, conf.packID);
        var s := SetWord(Session(pack, "", hostID), roll);
        (games[chatID := s], Success(s.word))
  }

  /** `SetWordPack`: as in the current revision, returning only the word. */
  function SetWordPack(games: Games, wdb: WordDB, chatID: ChatID, playerID: PlayerID,
                       langID: String, packID: String, roll: nat)
    : (r: (Games, Result<String, Game.GameError>))
    requires CatalogOk(wdb)
    ensures GamesOk(games) ==> GamesOk(r.0)
    ensures chatID !in games ==> r == (games, Success(""))
    ensures r.1.Failure? ==> r.0 == games
    ensures chatID in games ==>
      (r.1.Failure? <==> (games[chatID].IsActive() && games[chatID].hostID != playerID)
                         || GetWordPack(wdb, langID, packID).Failure?)
    ensures chatID in games && r.1.Success? ==>
      && chatID in r.0 && r.0 == games[chatID := r.0[chatID]]
      && var before := games[chatID];
         var s := r.0[chatID];
         && s.pack == GetWordPack(wdb, langID, packID).value
         && s.hostID == before.hostID
         && s.IsActive() == before.IsActive()
         && (s.IsActive() ==> s.word in s.pack)
         && r.1.value == s.word
  {
    if chatID !in games then (games, Success(""))
    else
      var s := games[chatID];
      if s.IsActive() && s.hostID != playerID then (games, Failure(Game.NotHost))
      else
        match GetWordPack(wdb, langID, packID)
        case Failure(e) => (games, Failure(Game.NoSuchPack(e)))
        case Success(pack) =>
          GetWordPackOk(wdb, langID, packID);
          var s1 := s.(pack := pack);
          var s2 := if s1.IsActive() then SetWord(s1, roll) else s1;
          (games[chatID := s2], Success(s2.word))
  }

  /** `Stop`. */
  function Stop(games: Games, chatID: ChatID, playerID: PlayerID): (r: (Games, bool))
    ensures GamesOk(games) ==> GamesOk(r.0)
    ensures r.1 <==> chatID !in games || !games[chatID].IsActive() || games[chatID].hostID == playerID
    ensures chatID !in games || !games[chatID].IsActive() || !r.1 ==> r.0 == games
    ensures chatID in games && games[chatID].IsActive() && r.1 ==>
      && chatID in r.0 && r.0 == games[chatID := r.0[chatID]]
      && !r.0[chatID].IsActive()
      && r.0[chatID].hostID == games[chatID].hostID && r.0[chatID].pack == games[chatID].pack
  {
    if chatID !in games || !games[chatID].IsActive() then (games, true)
    else if games[chatID].hostID != playerID then (games, false)
    else (games[chatID := games[chatID].SetNotActive()], true)
  }

  /** `CheckGuess`: a matching guess ends the round and returns the word. */
  function CheckGuess(games: Games, chatID: ChatID, playerID: PlayerID, guess: String): (r: (Games, String, bool))
    ensures GamesOk(games) ==> GamesOk(r.0)
    ensures r.2 <==> chatID in games && Matches(games[chatID].hostID, games[chatID].word, playerID, guess)
    ensures !r.2 ==> r.0 == games && r.1 == ""
    ensures r.2 ==>
      && r.1 == games[chatID].word && r.1 != ""
      && chatID in r.0 && r.0 == games[chatID := r.0[chatID]]
      && !r.0[chatID].IsActive()
      && r.0[chatID].hostID == games[chatID].hostID && r.0[chatID].pack == games[chatID].pack
  {
    if chatID !in games then (games, "", false)
    else
      var s := games[chatID];
      if !s.CheckGuess(playerID, guess) then (games, "", false)
      else (games[chatID := s.SetNotActive()], s.word, true)
  }

  /** `NextWord`. */
  function NextWord(games: Games, chatID: ChatID, hostID: PlayerID, roll: nat): (r: (Games, String, bool))
    requires GamesOk(games)
    ensures GamesOk(r.0)
    ensures r.2 <==> chatID in games && !games[chatID].IsActive()
    ensures !r.2 ==> r.0 == games && r.1 == ""
    ensures r.2 ==>
      && chatID in r.0 && r.0 == games[chatID := r.0[chatID]]
      && var s := r.0[chatID];
         s.IsActive() && s.hostID == hostID && s.pack == games[chatID].pack && r.1 == s.word && s.word in s.pack
  {
    if chatID !in games || games[chatID].IsActive() then (games, "", false)
    else
      var s := SetWord(games[chatID].(hostID := hostID), roll);
      (games[chatID := s], s.word, true)
  }

  /** `SkipWord`. */
  function SkipWord(games: Games, chatID: ChatID, playerID: PlayerID, roll: nat): (r: (Games, String, bool))
    requires GamesOk(games)
    ensures GamesOk(r.0)
    ensures r.2 <==> chatID in games && games[chatID].IsActive() && games[chatID].hostID == playerID
    ensures !r.2 ==> r.0 == games && r.1 == ""
    ensures r.2 ==>
      && chatID in r.0 && r.0 == games[chatID := r.0[chatID]]
      && var s := r.0[chatID];
         s.IsActive() && s.hostID == playerID && s.pack == games[chatID].pack && r.1 == s.word && s.word in s.pack
  {
    if chatID !in games || !games[chatID].IsActive() || games[chatID].hostID != playerID then (games, "", false)
    else
      var s := SetWord(games[chatID], roll);
      (games[chatID := s], s.word, true)
  }

  /** `GetWord`: only the host of a running round may see the word. */
  function GetWordOf(games: Games, chatID: ChatID, playerID: PlayerID): (r: (String, bool))
    ensures r.1 <==> chatID in games && games[chatID].IsActive() && games[chatID].hostID == playerID
    ensures r.1 ==> r.0 == games[chatID].word && r.0 != ""
    ensures !r.1 ==> r.0 == ""
  {
    if chatID !in games || !games[chatID].IsActive() || games[chatID].hostID != playerID then ("", false)
    else (games[chatID].word, true)
  }

  /** Stopping twice as host: both calls succeed, the second changes nothing. */
  lemma StopTwice(games: Games, chatID: ChatID, hostID: PlayerID)
    requires chatID in games && games[chatID].hostID == hostID
    ensures var (g1, ok1) := Stop(games, chatID, hostID);
            var (g2, ok2) := Stop(g1, chatID, hostID);
      ok1 && ok2 && g2 == g1 && !g2[chatID].IsActive() && g2[chatID].hostID == hostID
  {
  }

  // Forgetting definitions: the current engine refines this one.

  function Erase(s: Game.Session): Session {
    Session(s.pack.words, s.word, s.hostID)
  }

  function EraseAll(games: Game.Games): (r: Games)
    ensures r.Keys == games.Keys
  {
    map c | c in games :: Erase(games[c])
  }

  lemma EraseUpdate(games: Game.Games, chatID: ChatID, s: Game.Session)
    ensures EraseAll(games[chatID := s]) == EraseAll(games)[chatID := Erase(s)]
  {
  }

  lemma EraseOk(games: Game.Games)
    requires Game.GamesOk(games)
    ensures GamesOk(EraseAll(games))
  {
    forall c | c in EraseAll(games)
      ensures SessionOk(EraseAll(games)[c])
    {
      assert Game.SessionOk(games[c]);
    }
  }

  /** `Stop` and `CheckGuess` of both revisions agree once definitions are
      forgotten. */
  lemma StopAndGuessRefine(games: Game.Games, chatID: ChatID, playerID: PlayerID, guess: String)
    ensures var (g, ok) := Game.Stop(games, chatID, playerID);
      Stop(EraseAll(games), chatID, playerID) == (EraseAll(g), ok)
    ensures var (g, word, _, ok) := Game.CheckGuess(games, chatID, playerID, guess);
      CheckGuess(EraseAll(games), chatID, playerID, guess) == (EraseAll(g), word, ok)
  {
    if chatID in games {
      EraseUpdate(games, chatID, games[chatID].SetNotActive());
    }
  }

  /** `NextWord` and `SkipWord` of both revisions agree once definitions are
      forgotten, whatever the dictionary says. */
  lemma NextAndSkipRefine(games: Game.Games, dict: Game.Dictionary, chatID: ChatID, playerID: PlayerID, roll: nat)
    requires Game.GamesOk(games)
    ensures GamesOk(EraseAll(games))
    ensures var (g, word, _, ok) := Game.NextWord(games, dict, chatID, playerID, roll);
      NextWord(EraseAll(games), chatID, playerID, roll) == (EraseAll(g), word, ok)
    ensures var (g, word, _, ok) := Game.SkipWord(games, dict, chatID, playerID, roll);
      SkipWord(EraseAll(games), chatID, playerID, roll) == (EraseAll(g), word, ok)
  {
    EraseOk(games);
    if chatID in games {
      var s := games[chatID];
      assert Game.SessionOk(s);
      EraseUpdate(games, chatID, Game.SetWord(s.(hostID := playerID), dict, roll));
      EraseUpdate(games, chatID, Game.SetWord(s, dict, roll));
    }
  }

  /** `GetWord` of both revisions agree once definitions are forgotten. */
  lemma GetWordRefines(games: Game.Games, chatID: ChatID, playerID: PlayerID)
    ensures GetWordOf(EraseAll(games), chatID, playerID) == Game.GetWordOf(games, chatID, playerID)
  {
  }

  /** Forgetting the IDs and part of speech of a language's packs. */
  function ErasePacks(packs: map<String, Catalog.WordPack>): (r: map<String, WordPack>)
    ensures r.Keys == packs.Keys && forall p :: p in packs ==> r[p] == packs[p].words
  {
    map p | p in packs :: packs[p].words
  }

  /** The catalog of the current revision seen as one of the earlier
      revision: the same tables, every pack reduced to its word list. */
  function EraseCatalog(wdb: Catalog.WordDB): (r: WordDB)
    ensures r.langIDs == wdb.langIDs && r.packIDs == wdb.packIDs
    ensures r.langNames == wdb.langNames && r.packNames == wdb.packNames
    ensures r.packs.Keys == wdb.packs.Keys && forall l :: l in wdb.packs ==> r.packs[l] == ErasePacks(wdb.packs[l])
  {
    Registry(wdb.langIDs, wdb.packIDs, wdb.langNames, wdb.packNames,
             map l | l in wdb.packs :: ErasePacks(wdb.packs[l]))
  }

  /** A pack is found in the erased catalog exactly when it is found in the
      current one, and it is then that pack's word list. */
  lemma EraseCatalogGet(wdb: Catalog.WordDB, langID: String, packID: String)
    ensures GetWordPack(EraseCatalog(wdb), langID, packID).Success? <==> GetWordPack(wdb, langID, packID).Success?
    ensures GetWordPack(wdb, langID, packID).Success? ==>
      GetWordPack(EraseCatalog(wdb), langID, packID).value == GetWordPack(wdb, langID, packID).value.words
    ensures GetWordPack(wdb, langID, packID).Failure? ==>
      GetWordPack(EraseCatalog(wdb), langID, packID).error == GetWordPack(wdb, langID, packID).error
  {
  }

  /** Erasing a well-formed catalog gives a well-formed catalog of the
      earlier revision. */
  lemma EraseCatalogOk(wdb: Catalog.WordDB)
    requires Catalog.CatalogOk(wdb)
    ensures CatalogOk(EraseCatalog(wdb))
  {
    var r := EraseCatalog(wdb);
    forall l | l in r.packs
      ensures LanguageOk(r, l)
    {
      assert LanguageOk(wdb, l);
    }
    forall l, p | l in r.packs && p in r.packs[l]
      ensures PackStoredOk(r, l, p)
    {
      assert Catalog.PackStoredOk(wdb, l, p);
    }
  }

  /** `Play` of both revisions agree on the erased catalog: the same
      sessions once definitions are forgotten, the same error, and where
      the current revision reports whether a definition exists, the earlier
      one reports the word it drew. */
  lemma PlayRefine(games: Game.Games, wdb: Catalog.WordDB, dict: Game.Dictionary, conf: Game.ChatConfig,
                   chatID: ChatID, hostID: PlayerID, roll: nat)
    requires Catalog.CatalogOk(wdb)
    ensures var (g, res) := Game.Play(games, wdb, dict, conf, chatID, hostID, roll);
      && CatalogOk(EraseCatalog(wdb))
      && var (g', res') := Play(EraseAll(games), EraseCatalog(wdb), conf, chatID, hostID, roll);
         && g' == EraseAll(g)
         && (res'.Success? <==> res.Success?)
         && (res.Failure? ==> res'.error == res.error)
         && (res.Success? ==> res'.value == g[chatID].word)
  {
    EraseCatalogOk(wdb);
    EraseCatalogGet(wdb, conf.langID, conf.packID);
    if conf.packID != "" && GetWordPack(wdb, conf.langID, conf.packID).Success? {
      var pack := GetWordPack(wdb, conf.langID, conf.packID).value;
      Catalog.GetWordPackOk(wdb, conf.langID, conf.packID);
      EraseUpdate(games, chatID, Game.SetWord(Game.Session(pack, "", "", hostID), dict, roll));
    }
  }

  /** `SetWordPack` of both revisions agree on the erased catalog: the same
      sessions once definitions are forgotten, the same error, and the same
      word. */
  lemma SetWordPackRefine(games: Game.Games, wdb: Catalog.WordDB, dict: Game.Dictionary, chatID: ChatID,
                          playerID: PlayerID, langID: String, packID: String, roll: nat)
    requires Catalog.CatalogOk(wdb)
    ensures var (g, res) := Game.SetWordPack(games, wdb, dict, chatID, playerID, langID, packID, roll);
      && CatalogOk(EraseCatalog(wdb))
      && var (g', res') := SetWordPack(EraseAll(games), EraseCatalog(wdb), chatID, playerID, langID, packID, roll);
         && g' == EraseAll(g)
         && (res'.Success? <==> res.Success?)
         && (res.Failure? ==> res'.error == res.error)
         && (res.Success? ==> res'.value == res.value.0)
  {
    EraseCatalogOk(wdb);
    EraseCatalogGet(wdb, langID, packID);
    if chatID in games && GetWordPack(wdb, langID, packID).Success? {
      var s := games[chatID];
      var pack := GetWordPack(wdb, langID, packID).value;
      Catalog.GetWordPackOk(wdb, langID, packID);
      var s1 := s.(pack := pack);
      EraseUpdate(games, chatID, if s1.IsActive() then Game.SetWord(s1, dict, roll) else s1);
    }
  }
}

=== FILE: registry.dfy ===
/** The `WordDB` registry of both revisions: languages in load order, and per
    language the word packs in load order, with display names. The two
    revisions differ only in what a pack is, so the pack type is a
    parameter. */
module Registry {
  import opened Wrappers
  import opened Text

  datatype Registry<P> = Registry(
    langIDs: seq<String>,
    packIDs: map<String, seq<String>>,
    langNames: map<String, String>,
    packNames: map<String, map<String, String>>,
    packs: map<String, map<String, P>>)

  /** The getters' "does not exist" errors. */
  datatype LookupError = UnknownLanguage(langID: String) | UnknownPack(langID: String, packID: String)

  /** `NewWordDB`. */
  function Empty<P>(): Registry<P> {
    Registry([], map[], map[], map[], map[])
  }

  /** The per-language tables agree with each other. */
  ghost predicate LanguageOk<P>(db: Registry<P>, l: String)
    requires l in db.packs && l in db.packIDs && l in db.packNames
  {
    && (forall p :: p in db.packs[l] <==> p in db.packIDs[l])
    && db.packNames[l].Keys == db.packs[l].Keys
  }

  /** What `LoadWordPack` keeps true: every table knows the same languages,
      `langIDs` lists each of them once, and each language's pack list,
      pack table and name table know the same packs. */
  ghost predicate Valid<P>(db: Registry<P>) {
    && db.packIDs.Keys == db.packs.Keys
    && db.langNames.Keys == db.packs.Keys
    && db.packNames.Keys == db.packs.Keys
    && (forall l :: l in db.langIDs <==> l in db.packs)
    && (forall i, j :: 0 <= i < j < |db.langIDs| ==> db.langIDs[i] != db.langIDs[j])
    && (forall l :: l in db.packs ==> LanguageOk(db, l))
  }

  lemma EmptyValid<P>()
    ensures Valid(Empty<P>())
  {
  }

  /** `GetLanguageIDs`: the languages in the order they were first loaded. */
  function GetLanguageIDs<P>(db: Registry<P>): (ids: seq<String>)
    ensures Valid(db) ==> forall l :: l in ids <==> l in db.packs
  {
    db.langIDs
  }

  /** `GetWordPackIDs`. */
  function GetWordPackIDs<P>(db: Registry<P>, langID: String): (r: Result<seq<String>, LookupError>)
    ensures r.Failure? ==> r.error == UnknownLanguage(langID)
  {
    if langID in db.packIDs then Success(db.packIDs[langID]) else Failure(UnknownLanguage(langID))
  }

  /** `GetLanguageName`. */
  function GetLanguageName<P>(db: Registry<P>, langID: String): (r: Result<String, LookupError>)
    ensures r.Failure? ==> r.error == UnknownLanguage(langID)
  {
    if langID in db.langNames then Success(db.langNames[langID]) else Failure(UnknownLanguage(langID))
  }

  /** `GetWordPackName`. */
  function GetWordPackName<P>(db: Registry<P>, langID: String, packID: String): (r: Result<String, LookupError>)
    ensures r.Failure? ==> r.error == UnknownPack(langID, packID)
  {
    if langID in db.packNames && packID in db.packNames[langID] then Success(db.packNames[langID][packID])
    else Failure(UnknownPack(langID, packID))
  }

  /** `GetWordPack`; indexing a missing language yields a nil map, so this is
      not-found as well. */
  function GetWordPack<P>(db: Registry<P>, langID: String, packID: String): (r: Result<P, LookupError>)
    ensures r.Failure? ==> r.error == UnknownPack(langID, packID)
  {
    if langID in db.packs && packID in db.packs[langID] then Success(db.packs[langID][packID])
    else Failure(UnknownPack(langID, packID))
  }

  /** In a valid registry the getters agree with the menus: a language is
      found exactly when `GetLanguageIDs` lists it, and a pack (and its name)
      exactly when its language's `GetWordPackIDs` lists it. */
  lemma GettersAgree<P>(db: Registry<P>, langID: String, packID: String)
    requires Valid(db)
    ensures GetWordPackIDs(db, langID).Success? <==> langID in GetLanguageIDs(db)
    ensures GetLanguageName(db, langID).Success? <==> langID in GetLanguageIDs(db)
    ensures GetWordPack(db, langID, packID).Success? <==>
              GetWordPackIDs(db, langID).Success? && packID in GetWordPackIDs(db, langID).value
    ensures GetWordPackName(db, langID, packID).Success? <==> GetWordPack(db, langID, packID).Success?
  {
    if langID in db.packs {
      assert LanguageOk(db, langID);
    }
  }

  /** First half of a registration: a new language with an empty pack list. */
  function AddLanguage<P>(db: Registry<P>, langID: String, langName: String): (r: Registry<P>)
    ensures r.langIDs == db.langIDs + [langID]
    ensures GetLanguageName(r, langID) == Success(langName) && GetWordPackIDs(r, langID) == Success([])
  {
    Registry(db.langIDs + [langID], db.packIDs[langID := []], db.langNames[langID := langName],
             db.packNames[langID := map[]], db.packs[langID := map[]])
  }

  /** Second half of a registration: the pack stored under its language. */
  function AddPack<P>(db: Registry<P>, langID: String, packID: String, packName: String, pack: P): (r: Registry<P>)
    requires langID in db.packIDs && langID in db.packNames && langID in db.packs
    ensures r.langIDs == db.langIDs
    ensures GetWordPackIDs(r, langID) == Success(db.packIDs[langID] + [packID])
    ensures GetWordPack(r, langID, packID) == Success(pack) && GetWordPackName(r, langID, packID) == Success(packName)
  {
    Registry(db.langIDs,
             db.packIDs[langID := db.packIDs[langID] + [packID]],
             db.langNames,
             db.packNames[langID := db.packNames[langID][packID := packName]],
             db.packs[langID := db.packs[langID][packID := pack]])
  }

  /** Registering a language that is not yet known keeps the tables in step. */
  lemma AddLanguageValid<P>(db: Registry<P>, langID: String, langName: String)
    requires Valid(db) && langID !in db.packs
    ensures Valid(AddLanguage(db, langID, langName)) && langID in AddLanguage(db, langID, langName).packs
  {
    var r := AddLanguage(db, langID, langName);
    assert forall l :: l in r.langIDs <==> l in r.packs;
    assert langID !in db.langIDs;
    forall l | l in r.packs
      ensures LanguageOk(r, l)
    {
      if l != langID {
        assert LanguageOk(db, l);
        AddLanguageKeeps(db, langID, langName, l);
      }
    }
  }

  lemma AddLanguageKeeps<P>(db: Registry<P>, langID: String, langName: String, l: String)
    requires l in db.packs && l in db.packIDs && l in db.packNames && LanguageOk(db, l) && l != langID
    ensures var r := AddLanguage(db, langID, langName);
      l in r.packIDs && l in r.packNames && l in r.packs && LanguageOk(r, l)
  {
    var r := AddLanguage(db, langID, langName);
    assert r.packs[l] == db.packs[l] && r.packIDs[l] == db.packIDs[l] && r.packNames[l] == db.packNames[l];
  }

  /** Storing a pack under a known language keeps the tables in step. */
  lemma AddPackValid<P>(db: Registry<P>, langID: String, packID: String, packName: String, pack: P)
    requires Valid(db) && langID in db.packs
    ensures Valid(AddPack(db, langID, packID, packName, pack))
  {
    var r := AddPack(db, langID, packID, packName, pack);
    forall l | l in r.packs
      ensures LanguageOk(r, l)
    {
      AddPackLanguageOk(db, langID, packID, packName, pack, l);
    }
  }

  lemma AddPackLanguageOk<P>(db: Registry<P>, langID: String, packID: String, packName: String, pack: P, l: String)
    requires Valid(db) && langID in db.packs && l in db.packs
    ensures var r := AddPack(db, langID, packID, packName, pack);
      l in r.packIDs && l in r.packNames && l in r.packs && LanguageOk(r, l)
  {
    var r := AddPack(db, langID, packID, packName, pack);
    assert LanguageOk(db, l);
    if l != langID {
      assert r.packs[l] == db.packs[l] && r.packIDs[l] == db.packIDs[l] && r.packNames[l] == db.packNames[l];
    } else {
      assert r.packs[l].Keys == db.packs[l].Keys + {packID};
    }
  }

  /** The table updates of `LoadWordPack` once the pack has been read. The
      first pack of a language registers the language and its name; every
      pack is appended to its language's list and stored with its name. */
  function Register<P>(db: Registry<P>, langID: String, packID: String, langName: String, packName: String, pack: P): (r: Registry<P>)
    requires Valid(db)
    ensures langID in GetLanguageIDs(r)
    ensures GetWordPack(r, langID, packID) == Success(pack) && GetWordPackName(r, langID, packID) == Success(packName)
  {
    if langID in db.packs then AddPack(db, langID, packID, packName, pack)
    else AddPack(AddLanguage(db, langID, langName), langID, packID, packName, pack)
  }

  /** A registration keeps the tables in step. */
  lemma RegisterValid<P>(db: Registry<P>, langID: String, packID: String, langName: String, packName: String, pack: P)
    requires Valid(db)
    ensures Valid(Register(db, langID, packID, langName, packName, pack))
  {
    if langID in db.packs {
      AddPackValid(db, langID, packID, packName, pack);
    } else {
      AddLanguageValid(db, langID, langName);
      AddPackValid(AddLanguage(db, langID, langName), langID, packID, packName, pack);
    }
  }

  /** A registration records a language once: the list grows and the name
      is taken only for the first pack of a language. */
  lemma RegisterLanguage<P>(db: Registry<P>, langID: String, packID: String, langName: String, packName: String, pack: P)
    requires Valid(db)
    ensures var r := Register(db, langID, packID, langName, packName, pack);
      && r.langIDs == (if langID in db.langIDs then db.langIDs else db.langIDs + [langID])
      && GetLanguageName(r, langID) == Success(if langID in db.langIDs then db.langNames[langID] else langName)
  {
    var r := Register(db, langID, packID, langName, packName, pack);
    if langID in db.langIDs {
      assert r == AddPack(db, langID, packID, packName, pack);
    } else {
      var db1 := AddLanguage(db, langID, langName);
      assert r == AddPack(db1, langID, packID, packName, pack);
      assert r.langNames == db.langNames[langID := langName];
    }
  }

  /** A registration appends the pack to its language's list in load order. */
  lemma RegisterPack<P>(db: Registry<P>, langID: String, packID: String, langName: String, packName: String, pack: P)
    requires Valid(db)
    ensures GetWordPackIDs(Register(db, langID, packID, langName, packName, pack), langID)
              == Success((if langID in db.langIDs then db.packIDs[langID] else []) + [packID])
  {
    if langID in db.packs {
      assert langID in db.langIDs;
      assert Register(db, langID, packID, langName, packName, pack).packIDs[langID] == db.packIDs[langID] + [packID];
    } else {
      assert langID !in db.langIDs;
      var db1 := AddLanguage(db, langID, langName);
      assert db1.packIDs[langID] + [packID] == [packID];
    }
  }

  /** A registration makes the pack, and its name, findable. */
  lemma RegisterFindable<P>(db: Registry<P>, langID: String, packID: String, langName: String, packName: String, pack: P)
    requires Valid(db)
    ensures var r := Register(db, langID, packID, langName, packName, pack);
      && GetWordPack(r, langID, packID) == Success(pack)
      && GetWordPackName(r, langID, packID) == Success(packName)
  {
    var db1 := if langID in db.packs then db else AddLanguage(db, langID, langName);
    var r := AddPack(db1, langID, packID, packName, pack);
    assert r.packs[langID][packID] == pack && r.packNames[langID][packID] == packName;
  }

  /** Adding a language finds no pack that was not found before. */
  lemma AddLanguageFrame<P>(db: Registry<P>, langID: String, langName: String, l: String, p: String)
    requires langID !in db.packs && langID !in db.packNames
    ensures var r := AddLanguage(db, langID, langName);
      && GetWordPack(r, l, p) == GetWordPack(db, l, p)
      && GetWordPackName(r, l, p) == GetWordPackName(db, l, p)
  {
    var r := AddLanguage(db, langID, langName);
    if l == langID {
      assert r.packs[l] == map[] && r.packNames[l] == map[];
    } else {
      assert (l in r.packs <==> l in db.packs) && (l in db.packs ==> r.packs[l] == db.packs[l]);
      assert (l in r.packNames <==> l in db.packNames) && (l in db.packNames ==> r.packNames[l] == db.packNames[l]);
    }
  }

  /** Storing one pack changes no other pack. */
  lemma AddPackFrame<P>(db: Registry<P>, langID: String, packID: String, packName: String, pack: P, l: String, p: String)
    requires langID in db.packIDs && langID in db.packNames && langID in db.packs && (l, p) != (langID, packID)
    ensures var r := AddPack(db, langID, packID, packName, pack);
      && GetWordPack(r, l, p) == GetWordPack(db, l, p)
      && GetWordPackName(r, l, p) == GetWordPackName(db, l, p)
  {
    var r := AddPack(db, langID, packID, packName, pack);
    if l == langID {
      assert (p in r.packs[l] <==> p in db.packs[l]) && (p in db.packs[l] ==> r.packs[l][p] == db.packs[l][p]);
      assert (p in r.packNames[l] <==> p in db.packNames[l]) && (p in db.packNames[l] ==> r.packNames[l][p] == db.packNames[l][p]);
    }
  }

  /** A registration leaves every other pack as it was. */
  lemma RegisterFramePacks<P>(db: Registry<P>, langID: String, packID: String, langName: String, packName: String, pack: P,
                              l: String, p: String)
    requires Valid(db) && (l, p) != (langID, packID)
    ensures var r := Register(db, langID, packID, langName, packName, pack);
      && GetWordPack(r, l, p) == GetWordPack(db, l, p)
      && GetWordPackName(r, l, p) == GetWordPackName(db, l, p)
  {
    var r := Register(db, langID, packID, langName, packName, pack);
    if langID !in db.packs {
      var db1 := AddLanguage(db, langID, langName);
      assert r == AddPack(db1, langID, packID, packName, pack);
      AddLanguageFrame(db, langID, langName, l, p);
      AddPackFrame(db1, langID, packID, packName, pack, l, p);
    } else {
      assert r == AddPack(db, langID, packID, packName, pack);
      AddPackFrame(db, langID, packID, packName, pack, l, p);
    }
  }

  /** A registration leaves every other language's pack list and name as
      they were. */
  lemma RegisterFrameLanguages<P>(db: Registry<P>, langID: String, packID: String, langName: String, packName: String, pack: P,
                                  l: String)
    requires Valid(db) && l != langID
    ensures var r := Register(db, langID, packID, langName, packName, pack);
      && GetWordPackIDs(r, l) == GetWordPackIDs(db, l)
      && GetLanguageName(r, l) == GetLanguageName(db, l)
  {
    var db1 := if langID in db.packs then db else AddLanguage(db, langID, langName);
    var r := AddPack(db1, langID, packID, packName, pack);
    assert (l in r.packIDs <==> l in db.packIDs) && (l in db.packIDs ==> r.packIDs[l] == db.packIDs[l]);
    assert (l in r.langNames <==> l in db.langNames) && (l in db.langNames ==> r.langNames[l] == db.langNames[l]);
  }
}

=== FILE: text.dfy ===
/** String utilities of the Go standard library that the game relies on:
    `strings.TrimSpace`, `strings.Trim`, `strings.ToLower` and `len` on a
    UTF-8 encoded string. Strings are sequences of Unicode scalar values. */
module Text {

  type String = seq<char>

  /** The characters Go's `unicode.IsSpace` accepts: the Latin-1 white
      space characters plus the remaining code points of the Unicode
      White_Space property. */
  const Spaces: set<char> := {
    '\t', '\n', '\U{000B}', '\U{000C}', '\r', ' ', '\U{0085}', '\U{00A0}', '\U{1680}',
    '\U{2000}', '\U{2001}', '\U{2002}', '\U{2003}', '\U{2004}', '\U{2005}',
    '\U{2006}', '\U{2007}', '\U{2008}', '\U{2009}', '\U{200A}',
    '\U{2028}', '\U{2029}', '\U{202F}', '\U{205F}', '\U{3000}'
  }

  /** Number of bytes of the UTF-8 encoding of one code point. */
  function Utf8Width(c: char): (n: nat)
    ensures 1 <= n <= 4
    ensures n == 1 <==> c as int < 0x80
  {
    if c as int < 0x80 then 1
    else if c as int < 0x800 then 2
    else if c as int < 0x1_0000 then 3
    else 4
  }

  /** Go's `len(s)`: the byte length of the UTF-8 encoding of `s`. */
  function Utf8Len(s: String): (n: nat)
    ensures |s| <= n <= 4 * |s|
  {
    if |s| == 0 then 0 else Utf8Len(s[..|s| - 1]) + Utf8Width(s[|s| - 1])
  }

  /** A string never has fewer bytes than code points, and an ASCII string
      has exactly as many. */
  lemma {:induction false} Utf8LenBounds(s: String)
    ensures |s| <= Utf8Len(s) <= 4 * |s|
    ensures (forall i :: 0 <= i < |s| ==> s[i] as int < 0x80) ==> Utf8Len(s) == |s|
  {
    if |s| > 0 {
      Utf8LenBounds(s[..|s| - 1]);
    }
  }

  /** The byte length of a concatenation is the sum of the byte lengths. */
  lemma {:induction false} Utf8LenAppend(a: String, b: String)
    ensures Utf8Len(a + b) == Utf8Len(a) + Utf8Len(b)
    decreases |b|
  {
    if |b| == 0 {
      assert a + b == a;
    } else {
      assert (a + b)[..|a + b| - 1] == a + b[..|b| - 1];
      Utf8LenAppend(a, b[..|b| - 1]);
    }
  }

  /** The capital letters `LowerChar` folds: ASCII, Latin-1 (without the
      multiplication sign) and the basic Cyrillic block. */
  predicate IsUpper(c: char) {
    || 'A' <= c <= 'Z'
    || ('\U{00C0}' <= c <= '\U{00DE}' && c != '\U{00D7}')
    || '\U{0400}' <= c <= '\U{042F}'
  }

  /** Lower-cases one character (`unicode.ToLower` on the letters of
      `IsUpper`): A-Z, Latin-1 and А-Я move up by 32, Ѐ-Џ (Ё among them)
      by 80; everything else is kept. */
  function LowerChar(c: char): (d: char)
    ensures !IsUpper(d)
    ensures d != c <==> IsUpper(c)
    ensures Utf8Width(d) == Utf8Width(c)
  {
    if 'A' <= c <= 'Z' || ('\U{00C0}' <= c <= '\U{00DE}' && c != '\U{00D7}') || '\U{0410}' <= c <= '\U{042F}' then
      (c as int + 32) as char
    else if '\U{0400}' <= c <= '\U{040F}' then (c as int + 80) as char
    else c
  }

  /** `strings.ToLower` applied character by character. */
  function Lower(s: String): (r: String)
    ensures |r| == |s|
    ensures forall i :: 0 <= i < |s| ==> r[i] == LowerChar(s[i])
  {
    seq(|s|, i requires 0 <= i < |s| => LowerChar(s[i]))
  }

  /** Lower-casing twice is lower-casing once. */
  lemma LowerIdempotent(s: String)
    ensures Lower(Lower(s)) == Lower(s)
  {
  }

  /** Lower-casing keeps the byte length. */
  lemma {:induction false} Utf8LenLower(s: String)
    ensures Utf8Len(Lower(s)) == Utf8Len(s)
  {
    if |s| > 0 {
      Utf8LenLower(s[..|s| - 1]);
      assert Lower(s)[..|s| - 1] == Lower(s[..|s| - 1]);
    }
  }

  /** Drops the longest prefix of characters in `drop`
      (`strings.TrimLeftFunc`). */
  function TrimLeft(s: String, drop: set<char>): (r: String)
    ensures |r| <= |s| && r == s[|s| - |r|..]
    ensures forall k :: 0 <= k < |s| - |r| ==> s[k] in drop
    ensures |r| > 0 ==> r[0] !in drop
    decreases |s|
  {
    if |s| > 0 && s[0] in drop then
      var r := TrimLeft(s[1..], drop);
      assert forall k :: 1 <= k < |s| - |r| ==> s[k] == s[1..][k - 1];
      r
    else s
  }

  /** Drops the longest suffix of characters in `drop`
      (`strings.TrimRightFunc`). */
  function TrimRight(s: String, drop: set<char>): (r: String)
    ensures |r| <= |s| && r == s[..|r|]
    ensures forall k :: |r| <= k < |s| ==> s[k] in drop
    ensures |r| > 0 ==> r[|r| - 1] !in drop
    decreases |s|
  {
    if |s| > 0 && s[|s| - 1] in drop then
      var r := TrimRight(s[..|s| - 1], drop);
      assert forall k :: |r| <= k < |s| - 1 ==> s[k] == s[..|s| - 1][k];
      r
    else s
  }

  /** `strings.TrimFunc`: trims both ends. */
  function TrimFunc(s: String, drop: set<char>): (r: String)
    ensures |r| <= |s|
    ensures Untrimmable(r, drop)
  {
    var l := TrimLeft(s, drop);
    var r := TrimRight(l, drop);
    assert |r| > 0 ==> r[0] == l[0];
    r
  }

  /** `strings.TrimSpace`. */
  function TrimSpace(s: String): (r: String)
    ensures |r| <= |s| && Untrimmable(r, Spaces)
  {
    TrimFunc(s, Spaces)
  }

  /** Every character of `s` satisfies `drop`. */
  predicate AllDropped(s: String, drop: set<char>) {
    forall i :: 0 <= i < |s| ==> s[i] in drop
  }

  /** `m` cannot be trimmed any further: empty, or both ends are kept. */
  predicate Untrimmable(m: String, drop: set<char>) {
    |m| == 0 || (m[0] !in drop && m[|m| - 1] !in drop)
  }

  lemma TrimLeftDropped(s: String, drop: set<char>)
    ensures AllDropped(s[..|s| - |TrimLeft(s, drop)|], drop)
  {
    var p := s[..|s| - |TrimLeft(s, drop)|];
    forall k | 0 <= k < |p|
      ensures p[k] in drop
    {
      assert p[k] == s[k];
    }
  }

  lemma TrimRightDropped(s: String, drop: set<char>)
    ensures AllDropped(s[|TrimRight(s, drop)|..], drop)
  {
    var n := |TrimRight(s, drop)|;
    var q := s[n..];
    forall k | 0 <= k < |q|
      ensures q[k] in drop
    {
      assert q[k] == s[n + k];
    }
  }

  /** Where the trimmed string starts. */
  function TrimStart(s: String, drop: set<char>): (lo: nat)
    ensures lo + |TrimFunc(s, drop)| <= |s|
  {
    |s| - |TrimLeft(s, drop)|
  }

  lemma TrimFuncInfix(s: String, drop: set<char>)
    ensures var lo := TrimStart(s, drop);
      TrimFunc(s, drop) == s[lo..lo + |TrimFunc(s, drop)|]
  {
    var l := TrimLeft(s, drop);
    var lo := |s| - |l|;
    assert l == s[lo..];
  }

  lemma TrimFuncOutside(s: String, drop: set<char>)
    ensures var lo := TrimStart(s, drop);
      AllDropped(s[..lo], drop) && AllDropped(s[lo + |TrimFunc(s, drop)|..], drop)
  {
    var l := TrimLeft(s, drop);
    var lo := |s| - |l|;
    var n := |TrimRight(l, drop)|;
    TrimLeftDropped(s, drop);
    TrimRightDropped(l, drop);
    assert l == s[lo..];
    assert s[lo + n..] == l[n..];
  }

  /** The trimmed string is the infix `s[lo..lo + |r|]`, everything outside
      it is dropped, and it cannot be trimmed further. */
  lemma TrimFuncShape(s: String, drop: set<char>) returns (lo: nat)
    ensures var r := TrimFunc(s, drop);
      && lo + |r| <= |s|
      && r == s[lo..lo + |r|]
      && AllDropped(s[..lo], drop)
      && AllDropped(s[lo + |r|..], drop)
      && Untrimmable(r, drop)
  {
    lo := TrimStart(s, drop);
    TrimFuncInfix(s, drop);
    TrimFuncOutside(s, drop);
  }

  /** Conversely, padding an untrimmable string with dropped characters on
      both sides is undone exactly by trimming. Together with
      `TrimFuncShape` this characterises `TrimFunc` completely. */
  lemma {:induction false} TrimFuncPadded(p: String, m: String, q: String, drop: set<char>)
    requires AllDropped(p, drop) && AllDropped(q, drop) && Untrimmable(m, drop)
    ensures TrimFunc(p + m + q, drop) == m
  {
    var s := p + m + q;
    assert forall k :: 0 <= k < |p| ==> s[k] == p[k];
    assert forall k :: |p| + |m| <= k < |s| ==> s[k] == q[k - |p| - |m|];
    var l := TrimLeft(s, drop);
    var cut := |s| - |l|;
    if |m| > 0 {
      // The left trim stops exactly at the start of m.
      assert s[|p|] == m[0] && s[|p|] !in drop;
      assert cut == |p|;
      assert l == m + q;
      var r := TrimRight(l, drop);
      assert l[|m| - 1] == m[|m| - 1] && l[|m| - 1] !in drop;
      assert |r| == |m|;
    } else {
      assert |l| == 0;
    }
  }
}

=== FILE: truncate.dfy ===
/** Shortening a definition for display (`truncateDefinition`): cut at the
    last line break or full stop in the second half of the window, else at
    the last space, else hard; then mark the cut with an ellipsis. Lengths
    are counted in code points, after a first test on the UTF-8 length. */
module Truncate {
  import opened Text

  /** The separators in the order they are tried; the last one is accepted
      anywhere in the window, the others only in its second half. */
  const Splitters: String := ['\n', '.', ' ']

  const Ellipsis: char := '…'

  /** Index of the last `c` in `s[..hi]`, or -1. */
  function LastIndexBefore(s: String, c: char, hi: int): (r: int)
    requires hi <= |s|
    ensures -1 <= r && (hi <= 0 ==> r == -1) && (hi > 0 ==> r < hi)
    ensures r >= 0 ==> s[r] == c
    ensures forall k :: r < k < hi ==> s[k] != c
    decreases hi
  {
    if hi <= 0 then -1
    else if s[hi - 1] == c then hi - 1
    else LastIndexBefore(s, c, hi - 1)
  }

  /** The splitter loop: the index to cut at, or -1 when no separator qualifies. */
  function CutIndex(runes: String, maxLen: int, splitters: String, last: char): (r: int)
    requires 1 <= maxLen <= |runes|
    ensures -1 <= r < maxLen
    ensures r >= 0 ==> runes[r] in splitters
    decreases |splitters|
  {
    if splitters == [] then -1
    else
      var s := splitters[0];
      var idx := LastIndexBefore(runes, s, maxLen);
      if idx != -1 && (idx >= maxLen / 2 || s == last) then idx
      else CutIndex(runes, maxLen, splitters[1..], last)
  }

  /** `truncateDefinition`. A window of zero or fewer code points makes the
      Go code slice out of range whenever the text is longer than the window. */
  function Truncate(text: String, maxLen: int): (r: String)
    requires |text| <= maxLen || maxLen >= 1
    ensures |r| <= maxLen
    ensures r == text <==> |text| <= maxLen
    ensures |text| > maxLen ==> 1 <= |r| && r[|r| - 1] == Ellipsis && r[..|r| - 1] == text[..|r| - 1]
  {
    if Utf8Len(text) <= maxLen then
      Utf8LenBounds(text);
      text
    else if |text| <= maxLen then text
    else
      var cut := CutIndex(text, maxLen, Splitters, Splitters[|Splitters| - 1]);
      var kept := if cut != -1 then text[..cut] else text;
      var body := if |kept| >= maxLen then kept[..maxLen - 1] else kept;
      body + [Ellipsis]
  }

  /** `c` occurs somewhere in `s[lo..hi]`. */
  ghost predicate OccursIn(s: String, c: char, lo: int, hi: int)
    requires hi <= |s|
  {
    exists k :: lo <= k < hi && 0 <= k && s[k] == c
  }

  /** `i` is the last position of `c` in `s[..hi]`. */
  ghost predicate LastAt(s: String, c: char, i: int, hi: int)
    requires hi <= |s|
  {
    0 <= i < hi && s[i] == c && forall k :: i < k < hi ==> s[k] != c
  }

  lemma LastIndexFound(s: String, c: char, hi: int)
    requires hi <= |s|
    ensures OccursIn(s, c, 0, hi) ==> LastAt(s, c, LastIndexBefore(s, c, hi), hi)
    ensures !OccursIn(s, c, 0, hi) ==> LastIndexBefore(s, c, hi) == -1
  {
    var r := LastIndexBefore(s, c, hi);
    if r >= 0 {
      assert LastAt(s, c, r, hi);
    }
  }

  /** The occurrence predicates read on a slice, for concrete texts. */
  lemma OccursInSlice(s: String, c: char, lo: int, hi: int)
    requires 0 <= lo <= hi <= |s|
    ensures OccursIn(s, c, lo, hi) <==> c in s[lo..hi]
  {
    if c in s[lo..hi] {
      var j :| 0 <= j < hi - lo && s[lo..hi][j] == c;
      assert s[lo + j] == c;
    }
  }

  /** The splitter loop unrolled: a line break in the second half, else a
      full stop in the second half, else the last space. */
  lemma CutIndexUnrolled(text: String, maxLen: int)
    requires 1 <= maxLen <= |text|
    ensures var nl := LastIndexBefore(text, '\n', maxLen);
      var dot := LastIndexBefore(text, '.', maxLen);
      CutIndex(text, maxLen, Splitters, ' ') ==
        if nl != -1 && nl >= maxLen / 2 then nl
        else if dot != -1 && dot >= maxLen / 2 then dot
        else LastIndexBefore(text, ' ', maxLen)
  {
    assert Splitters[1..] == ['.', ' '] && ['.', ' '][1..] == [' '] && [' '][1..] == [];
  }

  /** A long text keeps everything before the cut index, or `maxLen - 1`
      code points when there is none. */
  lemma TruncateKeeps(text: String, maxLen: int)
    requires maxLen >= 1 && |text| > maxLen
    ensures var c := CutIndex(text, maxLen, Splitters, ' ');
      |Truncate(text, maxLen)| - 1 == if c != -1 then c else maxLen - 1
  {
    Utf8LenBounds(text);
  }

  /** Where a long text is cut, stated by the separators present in the
      window `text[..maxLen]`: a line break in the second half wins, then a
      full stop in the second half, then a space anywhere; otherwise the
      text is cut hard, keeping `maxLen - 1` code points. */
  lemma TruncateCutsAt(text: String, maxLen: int)
    requires maxLen >= 1 && |text| > maxLen
    ensures var p := |Truncate(text, maxLen)| - 1;
      var half := maxLen / 2;
      if OccursIn(text, '\n', half, maxLen) then LastAt(text, '\n', p, maxLen)
      else if OccursIn(text, '.', half, maxLen) then LastAt(text, '.', p, maxLen)
      else if OccursIn(text, ' ', 0, maxLen) then LastAt(text, ' ', p, maxLen)
      else p == maxLen - 1
  {
    var half := maxLen / 2;
    LastIndexFound(text, '\n', maxLen);
    LastIndexFound(text, '.', maxLen);
    LastIndexFound(text, ' ', maxLen);
    CutIndexUnrolled(text, maxLen);
    TruncateKeeps(text, maxLen);
    var nl := LastIndexBefore(text, '\n', maxLen);
    var dot := LastIndexBefore(text, '.', maxLen);
    assert OccursIn(text, '\n', half, maxLen) <==> nl != -1 && nl >= half;
    assert OccursIn(text, '.', half, maxLen) <==> dot != -1 && dot >= half;
  }

  /** A truncated text is short enough to be left alone the second time. */
  lemma TruncateIdempotent(text: String, maxLen: int)
    requires |text| <= maxLen || maxLen >= 1
    ensures Truncate(Truncate(text, maxLen), maxLen) == Truncate(text, maxLen)
  {
  }

  /** The short cases of `TestTruncateDefinition`. */
  lemma TruncateTable()
    ensures Truncate("short text", 10) == "short text"
    ensures Truncate("", 10) == ""
    ensures Truncate("a", 1) == "a"
  {
    Utf8LenBounds("short text");
  }

  /** A text whose window is cut into pieces of five code points. */
  lemma Pieces(a: String, b: String, c: String, d: String, rest: String)
    requires |a| == |b| == |c| == |d| == 5
    ensures var t := a + b + c + d + rest;
      && t[..20] == a + b + c + d && t[10..20] == c + d && t[15..20] == d
      && t[..19] == a + b + c + d[..4] && t[14] == c[4] && t[19] == d[4]
  {
    var t := a + b + c + d + rest;
    assert t == (a + b) + (c + d) + rest;
  }

  /** The result of a cut after `p` code points. */
  lemma CutResult(text: String, maxLen: int, p: int)
    requires maxLen >= 1 && |text| > maxLen && 0 <= p && |Truncate(text, maxLen)| == p + 1
    ensures Truncate(text, maxLen) == text[..p] + [Ellipsis]
  {
  }

  /** A window free of a separator holds none to cut at. */
  lemma Absent(text: String, c: char, maxLen: int)
    requires 0 <= maxLen <= |text| && c !in text[..maxLen]
    ensures LastIndexBefore(text, c, maxLen) == -1
  {
    LastIndexFound(text, c, maxLen);
    OccursInSlice(text, c, 0, maxLen);
  }

  /** With neither line break nor full stop in the window, a space at
      its very end is where the cut falls. */
  lemma CutAtFinalSpace(t: String, maxLen: int)
    requires maxLen >= 1 && |t| > maxLen
    requires '\n' !in t[..maxLen] && '.' !in t[..maxLen] && t[maxLen - 1] == ' '
    ensures Truncate(t, maxLen) == t[..maxLen - 1] + [Ellipsis]
  {
    Absent(t, '\n', maxLen);
    Absent(t, '.', maxLen);
    CutIndexUnrolled(t, maxLen);
    TruncateKeeps(t, maxLen);
    CutResult(t, maxLen, maxLen - 1);
  }

  /** With no line break in the window, the last full stop in its second
      half is where the cut falls. */
  lemma CutAtFullStop(t: String, maxLen: int, i: int)
    requires maxLen >= 1 && |t| > maxLen && maxLen / 2 <= i < maxLen
    requires '\n' !in t[..maxLen] && t[i] == '.' && '.' !in t[i + 1..maxLen]
    ensures Truncate(t, maxLen) == t[..i] + [Ellipsis]
  {
    Absent(t, '\n', maxLen);
    forall k | i < k < maxLen
      ensures t[k] != '.'
    {
      assert t[k] == t[i + 1..maxLen][k - i - 1];
    }
    LastIndexFound(t, '.', maxLen);
    CutIndexUnrolled(t, maxLen);
    TruncateKeeps(t, maxLen);
    CutResult(t, maxLen, i);
  }

  /** With no separator at all in the window, the cut is hard. */
  lemma CutHard(t: String, maxLen: int)
    requires maxLen >= 1 && |t| > maxLen
    requires '\n' !in t[..maxLen] && '.' !in t[..maxLen] && ' ' !in t[..maxLen]
    ensures Truncate(t, maxLen) == t[..maxLen - 1] + [Ellipsis]
  {
    Absent(t, '\n', maxLen);
    Absent(t, '.', maxLen);
    Absent(t, ' ', maxLen);
    CutIndexUnrolled(t, maxLen);
    TruncateKeeps(t, maxLen);
    CutResult(t, maxLen, maxLen - 1);
  }

  /** A text opening with "long text " is cut after "long text", whatever follows. */
  lemma TruncateAtSpace(rest: String)
    requires |rest| >= 1
    ensures Truncate("long " + "text " + rest, 10) == "long " + "text" + "…"
  {
    var a, b := "long ", "text ";
    var t := a + b + rest;
    assert t[..10] == a + b && t[..9] == a + b[..4] && t[9] == b[4];
    assert '\n' !in a && '\n' !in b && '.' !in a && '.' !in b;
    CutAtFinalSpace(t, 10);
  }

  lemma TruncateAtWordBoundary(rest: String)
    requires |rest| >= 1
    ensures Truncate("this " + "is a " + "very " + "long " + rest, 20) == "this " + "is a " + "very " + "long" + "…"
  {
    var a, b, c, d := "this ", "is a ", "very ", "long ";
    var t := a + b + c + d + rest;
    Pieces(a, b, c, d, rest);
    assert '\n' !in a && '\n' !in b && '\n' !in c && '\n' !in d;
    assert '.' !in a && '.' !in b && '.' !in c && '.' !in d;
    CutAtFinalSpace(t, 20);
  }

  lemma TruncateAtSentence(rest: String)
    requires |rest| >= 1
    ensures Truncate("this " + "is a " + "very." + " long" + rest, 20) == "this " + "is a " + "very" + "…"
  {
    var a, b, c, d := "this ", "is a ", "very.", " long";
    var t := a + b + c + d + rest;
    Pieces(a, b, c, d, rest);
    assert '\n' !in a && '\n' !in b && '\n' !in c && '\n' !in d;
    assert '.' !in d && t[14] == '.';
    assert t[..14] == a + b + c[..4] by {
      assert t[..14] == t[..19][..14];
    }
    CutAtFullStop(t, 20, 14);
  }

  lemma NoSplitterIn(s: String)
    requires |s| == 5 && forall k :: 0 <= k < 5 ==> s[k] == '_' || 'a' <= s[k] <= 'z'
    ensures ' ' !in s && '.' !in s && '\n' !in s
  {
  }

  /** Without any separator in the window the cut is hard. */
  lemma TruncateHard(rest: String)
    requires |rest| >= 1
    ensures Truncate("this_" + "is_a_" + "very_" + "long_" + rest, 20) == "this_" + "is_a_" + "very_" + "long" + "…"
  {
    var a, b, c, d := "this_", "is_a_", "very_", "long_";
    var t := a + b + c + d + rest;
    Pieces(a, b, c, d, rest);
    NoSplitterIn(a);
    NoSplitterIn(b);
    NoSplitterIn(c);
    NoSplitterIn(d);
    CutHard(t, 20);
  }

  /** The long cases of `TestTruncateDefinition`. */
  lemma TruncateTableLong()
    ensures Truncate("long " + "text " + "that needs to be truncated", 10) == "long " + "text" + "…"
    ensures Truncate("this " + "is a " + "very " + "long " + "text that needs to be truncated at a word boundary", 20)
         == "this " + "is a " + "very " + "long" + "…"
    ensures Truncate("this " + "is a " + "very." + " long" + " text that needs to be truncated at a sentence boundary", 20)
         == "this " + "is a " + "very" + "…"
    ensures Truncate("this_" + "is_a_" + "very_" + "long_" + "text", 20) == "this_" + "is_a_" + "very_" + "long" + "…"
  {
    TruncateAtSpace("that needs to be truncated");
    TruncateAtWordBoundary("text that needs to be truncated at a word boundary");
    TruncateAtSentence(" text that needs to be truncated at a sentence boundary");
    TruncateHard("text");
  }
}

=== FILE: words.dfy ===
/** Word lists: the line filter shared by both revisions of `loadWordPack`
    and by the dictionary updater, and the random word choice. */
module Words {
  import opened Text

  /** The error of loading a word list that has no word left after
      filtering. */
  datatype PackError = EmptyPack

  /** A usable word: non-empty, with no white space at either end. */
  predicate IsWord(w: String) {
    w != "" && Untrimmable(w, Spaces)
  }

  /** A list a word can be drawn from: non-empty, every entry a word. */
  predicate WordsOk(words: seq<String>) {
    |words| > 0 && forall i :: 0 <= i < |words| ==> IsWord(words[i])
  }

  /** Trimming white space twice is the same as trimming it once. */
  lemma TrimSpaceIdempotent(s: String)
    ensures TrimSpace(TrimSpace(s)) == TrimSpace(s)
  {
    var lo := TrimFuncShape(s, Spaces);
    TrimFuncPadded([], TrimSpace(s), [], Spaces);
    assert [] + TrimSpace(s) + [] == TrimSpace(s);
  }

  /** A string without white space at either end is its own trim. */
  lemma TrimSpaceKeeps(w: String)
    requires Untrimmable(w, Spaces)
    ensures TrimSpace(w) == w
  {
    assert TrimLeft(w, Spaces) == w;
    assert TrimRight(w, Spaces) == w;
  }

  /** The words are exactly the non-empty strings `strings.TrimSpace`
      leaves alone. */
  lemma IsWordIffTrimmed(w: String)
    ensures IsWord(w) <==> w != "" && TrimSpace(w) == w
  {
    if w != "" && Untrimmable(w, Spaces) {
      TrimSpaceKeeps(w);
    }
    if w != "" && TrimSpace(w) == w {
      var lo := TrimFuncShape(w, Spaces);
    }
  }

  /** A line that does not trim to nothing trims to a word. */
  lemma TrimmedIsWord(line: String)
    ensures TrimSpace(line) != "" ==> IsWord(TrimSpace(line))
  {
    var lo := TrimFuncShape(line, Spaces);
  }

  /** Each line trimmed with `strings.TrimSpace`, blank results dropped,
      order kept. */
  function PackWords(lines: seq<String>): (words: seq<String>)
    ensures |words| <= |lines|
  {
    if |lines| == 0 then []
    else
      var w := TrimSpace(lines[0]);
      var rest := PackWords(lines[1..]);
      if w == "" then rest else [w] + rest
  }

  /** Everything the filter keeps is a word. */
  lemma {:induction false} PackWordsAreWords(lines: seq<String>)
    ensures forall i :: 0 <= i < |PackWords(lines)| ==> IsWord(PackWords(lines)[i])
  {
    if |lines| > 0 {
      var w := TrimSpace(lines[0]);
      var rest := PackWords(lines[1..]);
      PackWordsAreWords(lines[1..]);
      if w != "" {
        TrimmedIsWord(lines[0]);
        var ws := PackWords(lines);
        assert ws == [w] + rest;
        forall i | 0 <= i < |ws|
          ensures IsWord(ws[i])
        {
          if i > 0 {
            assert ws[i] == rest[i - 1];
          }
        }
      }
    }
  }

  /** Some line of `lines` trims to `w`. */
  ghost predicate TrimsTo(lines: seq<String>, w: String) {
    exists i :: 0 <= i < |lines| && TrimSpace(lines[i]) == w
  }

  /** Unfolds `TrimsTo` by one line. */
  lemma TrimsToCons(lines: seq<String>, w: String)
    requires |lines| > 0
    ensures TrimsTo(lines, w) <==> TrimSpace(lines[0]) == w || TrimsTo(lines[1..], w)
  {
    var rest := lines[1..];
    if TrimsTo(rest, w) {
      var j :| 0 <= j < |rest| && TrimSpace(rest[j]) == w;
      assert lines[j + 1] == rest[j];
      assert TrimsTo(lines, w);
    }
    if TrimSpace(lines[0]) == w {
      assert TrimsTo(lines, w);
    }
    if TrimsTo(lines, w) && TrimSpace(lines[0]) != w {
      var i :| 0 <= i < |lines| && TrimSpace(lines[i]) == w;
      assert i > 0 && rest[i - 1] == lines[i];
      assert TrimsTo(rest, w);
    }
  }

  /** A list of words passes the filter unchanged. */
  lemma {:induction false} PackWordsOfWords(ws: seq<String>)
    requires forall i :: 0 <= i < |ws| ==> IsWord(ws[i])
    ensures PackWords(ws) == ws
  {
    if |ws| > 0 {
      TrimSpaceKeeps(ws[0]);
      PackWordsOfWords(ws[1..]);
      assert ws == [ws[0]] + ws[1..];
    }
  }

  /** A word survives the filter exactly when some line trims to it. */
  lemma {:induction false} PackWordsMembers(lines: seq<String>, w: String)
    ensures w in PackWords(lines) <==> w != "" && TrimsTo(lines, w)
  {
    if |lines| > 0 {
      var w0 := TrimSpace(lines[0]);
      PackWordsMembers(lines[1..], w);
      TrimsToCons(lines, w);
      assert PackWords(lines) == (if w0 == "" then [] else [w0]) + PackWords(lines[1..]);
    }
  }

  /** The filter works line by line: filtering a concatenation is the
      concatenation of the filtered parts. */
  lemma {:induction false} PackWordsAppend(a: seq<String>, b: seq<String>)
    ensures PackWords(a + b) == PackWords(a) + PackWords(b)
  {
    if |a| == 0 {
      assert a + b == b;
    } else {
      assert (a + b)[0] == a[0];
      assert (a + b)[1..] == a[1..] + b;
      PackWordsAppend(a[1..], b);
    }
  }

  /** The filter is idempotent: re-filtering a filtered list changes nothing. */
  lemma {:induction false} PackWordsIdempotent(lines: seq<String>)
    ensures PackWords(PackWords(lines)) == PackWords(lines)
  {
    if |lines| > 0 {
      var w := TrimSpace(lines[0]);
      PackWordsIdempotent(lines[1..]);
      if w != "" {
        var rest := PackWords(lines[1..]);
        TrimSpaceIdempotent(lines[0]);
        assert ([w] + rest)[0] == w;
        assert ([w] + rest)[1..] == rest;
      }
    }
  }

  /** `WordPack.GetWord`: `rand.Intn` is replaced by an arbitrary `roll`,
      reduced to an index of the list. */
  function PickWord(words: seq<String>, roll: nat): (w: String)
    requires WordsOk(words)
    ensures w in words && IsWord(w)
  {
    words[roll % |words|]
  }

  /** The chooser can produce every word of the list, so it stands for any
      choice the random source could make. */
  lemma PickWordCovers(words: seq<String>, i: nat)
    requires WordsOk(words) && i < |words|
    ensures PickWord(words, i) == words[i]
  {
  }
}

=== FILE: wrappers.dfy ===
/** Failure-compatible result types shared by every module of the model. */
module Wrappers {

  /** A value that may be missing (a Go `(v, ok)` pair or a nil map entry). */
  datatype Option<+T> = None | Some(value: T)

  /** A value or an error (a Go `(v, err)` pair). */
  datatype Result<+T, +E> = Success(value: T) | Failure(error: E)

  /** A pass or an error without a value (a Go `error` result). */
  datatype Outcome<+E> = Pass | Fail(error: E)
}
